=== FILE: README.md ===
# Telecom voice classifier: matcher and classifier core in Dafny

This project models the core of a telephone-tone classifier. The classifier
compares a target recording's MFCC feature sequence with a library of named
reference ("golden") patterns, then turns the resulting name→distance map
into a call type such as `voicemail`, `noresponse`, `inbusy` or `typical`.
The repository keeps several near-identical revisions of the matcher; each
one is modelled, and each is proved equal to one shared specification.

- `optional.dfy` (`Optional`): `Option`, for Python's `None` threshold and
  for `dict.get` on a missing key.
- `ext_real.dfy` (`ExtReal`): distances are a real or `Inf` (Python's
  `math.inf`). Also Python's two-argument `min`, and `d / window`.
- `features.dfy` (`Features`): frames, patterns, the pattern dict, and the
  squared-difference distance of one window.
- `scan.dfy` (`Scan`): the shared specification.
  - Offsets `range(0, T - W + 1, step)`.
  - The running minimum after `k` windows, and the stepped and exhaustive
    minima.
  - `Match`: one `cmp_proc` call with a threshold and a stop flag.
  - The per-iteration facts each scan loop is proved with.
- `scanners.dfy` (`Scanners`): the two flag-free scan loops, proved equal
  to `Scan`.
- `televid.dfy` (`Televid`): the current `cmp_proc` with its shared stop
  flag, and the sequential `identify` that folds it over the library.
- `televid_parallel.dfy` (`TelevidParallel`): the parallel `identify`,
  modelled at the level of what each process can report.
- `televid_legacy.dfy` (`TelevidLegacy`): the older `televid.py`, whose
  `identify` prints results and shares no flag.
- `cmp_mfcc.dfy`, `cmp_mfcc_multicore.dfy`, `patterns_cmp.dfy`: the three
  stand-alone comparison scripts.
- `queue_merge.dfy` (`QueueMerge`): the parent's merge of queued worker
  results, for any arrival order.
- `distance_maps.dfy` (`DistanceMaps`): the ordered result dict with the
  semantics of `dict.update` and `dict.get`.
- `classifier.dfy` (`Classifier`): `matched_pattern`, `mrd`, `result_type`
  and `is_correct`.
- `riff.dfy` (`Riff`): the fix-up of the RIFF chunk-size field.
  - It rewrites bytes 4-7 of FFmpeg's piped WAV output: the ChunkSize field
    of the RIFF chunk header in the RIFF/WAVE format (Multimedia
    Programming Interface and Data Specifications 1.0).
  - The field holds the little-endian byte count after the first 8 bytes.
- `arith.dfy` (`Arith`): integer facts used by the proofs.

Points where the revisions behave differently, or where the code does
something easy to miss:

- The sequential `identify` of `televid/televid.py:154-159` passes one stop
  flag to every pattern, as its comment at lines 151-153 says. A threshold
  hit on one pattern therefore makes every later pattern `inf`. The older
  `televid.py:127-130` shares no flag, so there a hit stops only its own
  pattern. Both are modelled.
- The parallel branch of `patterns_cmp.py` does not wait for its workers
  before reading the queue (see Findings).
- A zero `scan_step` makes `range` raise, but `range` is only reached when
  the target is at least as long as the pattern. The step precondition is
  therefore `Scan.StepAccepted`: a nonzero step, or a target shorter than
  the pattern, which gives `inf` for any step.
- `mrd` on a map whose values are all infinite is `inf - inf`, a NaN in
  Python. It is modelled as `None`, not excluded by a precondition. With it,
  `mrd < 2000` is false, as for NaN.

## Model

| member | source | states |
|---|---|---|
| ExtReal.Min | televid/televid.py:203 | `min(x, diff)` is at most both arguments and is one of them |
| ExtReal.Norm | televid/televid.py:211 | `diff / window` is infinite exactly when `diff` is, and otherwise multiplies back to `diff` |
| ExtReal.NormMonotone | televid/televid.py:204 | dividing by the window keeps the order of two distances, in both directions |
| Features.WindowDist | televid/televid.py:202-203 | the squared difference of a window is never negative, and is zero when the pattern occurs verbatim there |
| Features.NamesOf | cmp_mfcc.py:18 | the dict's keys, in insertion order |
| Scan.StepAccepted | televid/televid.py:197-198 | the step precondition: `range` is reached, and raises on a zero step, only when the pattern fits in the target. It has no ensures; `Scan.MatchShortTarget` gives `inf` for a shorter target with any step |
| Scan.PrefixMin | televid/televid.py:196-203 | the value of `diff` after `k` enumerated windows. It has no ensures; `Scan.PrefixMinIsLeast` and `Scan.PrefixMinAntitone` characterise it as the least of those windows |
| Scan.Stepped | televid/televid.py:196-211 | the full scan with step `step`, normalised. It has no ensures; `Scan.SteppedAttained`, `Scan.SteppedIsLeast` and `Scan.SteppedNonNegative` characterise it as the least visited distance |
| Scan.Exhaustive | cmp_mfcc.py:19-26 | the step-1 scan. It has no ensures; `Scan.ExhaustiveIsTrueMinimum` characterises it as the least distance over every offset |
| Scan.Truthy | televid/televid.py:204 | Python truthiness of `threshold`: `None` and `0` are false. It has no ensures; `Scan.MatchWithoutThreshold` and `Scan.MatchWithThreshold` say what each case does |
| Scan.OffsetInRange | televid/televid.py:198 | every offset `range` enumerates leaves room for a whole window |
| Scan.OffsetsCovered | televid/televid.py:198 | every multiple of the step that leaves room for a window is enumerated |
| Scan.OffsetPastRange | televid/televid.py:198 | the first offset after the range leaves no room for a window |
| Scan.PrefixMinIsLeast | televid/televid.py:196-203 | the running minimum after `k` windows is infinite only for `k = 0`, is attained at one of those windows, and is at most each of them |
| Scan.PrefixMinAntitone | televid/televid.py:203 | the running minimum never increases as more windows are seen |
| Scan.SteppedAttained | televid/televid.py:196-211 | with a positive step, the stepped result is infinite exactly when the target is shorter than the pattern; otherwise it is finite and attained at an enumerated offset |
| Scan.SteppedIsLeast | televid/televid.py:198-203 | the stepped result is at most the normalised distance of every offset that is a multiple of the step and fits |
| Scan.ExhaustiveIsTrueMinimum | cmp_mfcc.py:23-26 | with step 1 the result is the least normalised distance over every offset `0..T-W`, and is attained |
| Scan.SteppedNoBetterThanExhaustive | televid/televid.py:198 | a larger step never finds a smaller distance than step 1 |
| Scan.SteppedNonNegative | cmp_mfcc.py:25-26 | every finite stepped result is non-negative |
| Scan.SteppedVerbatimIsZero | cmp_mfcc.py:24-25 | a pattern that occurs verbatim at a visited offset gives exactly 0 |
| Scan.FirstHit | televid/televid.py:204-206 | the first window count whose running minimum passes the threshold test, or none; earlier counts all fail |
| Scan.Match | televid/televid.py:195-211 | a set flag stays set, and the call sets the flag only with a truthy threshold and a value below it |
| Scan.MatchStopsAt | televid/televid.py:204-206 | the first window that passes the test ends the scan with that running minimum and the flag set |
| Scan.MatchRunsToEnd | televid/televid.py:198-211 | a scan in which no window passes the test returns the full stepped minimum with the flag clear |
| Scan.MatchShortTarget | televid/televid.py:197-211 | a target shorter than the pattern, or a negative step, gives `inf` and leaves the flag alone |
| Scan.MatchAfterStop | televid/televid.py:199-201 | a flag set before the call gives `inf`, never a partial minimum |
| Scan.MatchInfiniteIff | televid/televid.py:196-197 | with a positive step and the flag clear, the result is infinite exactly when the target is shorter than the pattern (a negative step always gives `inf`, by `Scan.MatchShortTarget`) |
| Scan.MatchWithoutThreshold | televid/televid.py:204 | a threshold of `None` or `0` never stops the scan: the full stepped minimum, flag clear |
| Scan.MatchWithThreshold | televid/televid.py:204-206 | with a truthy threshold the flag is set exactly when the full scan would end below the threshold; the value is then below the threshold and no better than the full scan, and otherwise it is the full scan |
| Scan.MatchNonNegative | televid/televid.py:202-203 | every finite reported distance is non-negative |
| Scan.ScanningWindow | televid/televid.py:198-203 | a window that fits at the current offset is the next enumerated one and extends the running minimum |
| Scan.ScanningEnd | televid/televid.py:198 | leaving the loop means every enumerated window was seen |
| Scanners.ScanAll | cmp_mfcc.py:19-26 | the exhaustive loop computes the step-1 minimum |
| Scanners.ScanWithThreshold | patterns_cmp.py:49-58 | the loop with a threshold break computes the flag-free match |
| Televid.CmpProc | televid/televid.py:177-214 | `cmp_proc` with a shared flag returns exactly the value and flag of `Match` |
| Televid.Sweep | televid/televid.py:156-159 | the results of the sequential loop, one per pattern, with the flag threaded through. `Televid.SweepStep`, `Televid.FlagSetIff` and `Televid.SweepWithoutThreshold` characterise it |
| Televid.SweepStep | televid/televid.py:156-159 | each pattern is matched with the flag left by the patterns before it |
| Televid.FlagStaysSet | televid/televid.py:199-201 | once set, the flag is set for every later pattern |
| Televid.LaterPatternsInfinite | televid/televid.py:154-159 | after the first pattern reported below the threshold, every later pattern is `inf` |
| Televid.FlagSetIff | televid/televid.py:204-206 | the flag is set after pattern `j` exactly when some pattern up to `j` was reported below the threshold |
| Televid.SweepWithoutThreshold | televid/televid.py:154-159 | without a truthy threshold every pattern gets its full stepped minimum |
| Televid.IdentifyDone | televid/televid.py:158-159 | the merged sweep maps each library name to its result and leaves other keys alone |
| Televid.Identify | televid/televid.py:147-159 | sequential `identify`: each name maps to its sweep result, other keys of the kept dict are untouched, and a fresh dict has exactly the library's names, in order |
| TelevidParallel.IdentifyParallel | televid/televid.py:160-173 | parallel `identify`: each name holds its undisturbed match, or `inf` if the flag stopped its process; other keys are untouched |
| TelevidParallel.ParallelWithoutThreshold | televid/televid.py:165-173 | without a truthy threshold no process is stopped, and every schedule gives the sequential results |
| TelevidParallel.SequentialIsOneSchedule | televid/televid.py:154-173 | the sequential loop is one schedule the parallel branch allows, and reports the same values |
| TelevidParallel.WorkerValue | televid/televid.py:199-206 | a process reports its undisturbed match, or `inf` when stopped |
| TelevidLegacy.CmpProc | televid.py:112-125 | the nested `cmp_proc` with no flag computes the flag-free match for its name |
| TelevidLegacy.IdentifyPrinted | televid.py:127-130 | the sequential branch prints one independent match per pattern, in dict order |
| TelevidLegacy.IdentifyPrintedParallel | televid.py:131-144 | the parallel branch prints the same lines in arrival order, every pattern once |
| TelevidLegacy.SweepVersusIndependent | televid/televid.py:199-201 | the shared flag of the current revision changes a pattern's value only to `inf`, and only once an earlier pattern stopped the sweep |
| CmpMfcc.CmpMfcc | cmp_mfcc.py:6-27 | the dict has exactly the pattern names, in order, each holding its exhaustive distance |
| CmpMfccMulticore.CmpProc | cmp_mfcc_multicore.py:34-44 | each worker queues its name with the exhaustive distance |
| CmpMfccMulticore.CmpMfcc | cmp_mfcc_multicore.py:12-32 | after the join, for any arrival order, the keys are exactly the pattern names and each holds the same distance as in `cmp_mfcc.py` |
| QueueMerge.OrderedNamesDistinct | cmp_mfcc_multicore.py:30-31 | distinct patterns in any order have distinct names |
| QueueMerge.DrainedSpec | patterns_cmp.py:42-43 | after `k` results the keys are the first `k` finishers' names, each with its value, and every later finisher is missing |
| QueueMerge.DrainedAll | cmp_mfcc_multicore.py:28-31 | once every result is merged, each name holds its value and there are no other keys |
| QueueMerge.MergeIntoValues | televid/televid.py:172-173 | merging every result into a kept dict gives each name its value, for any arrival order |
| QueueMerge.MergeIntoOthers | televid/televid.py:172-173 | that merge leaves every other key alone |
| QueueMerge.EarlyDrainMissesPattern | patterns_cmp.py:42-43 | stopping before the last result loses some pattern name |
| PatternsCmp.CmpProc | patterns_cmp.py:46-58 | each worker queues its name with the step-1 match under the threshold |
| PatternsCmp.Drain | patterns_cmp.py:37-43 | the drain loop is the merge of the first `drained` queued results |
| PatternsCmp.PtnsCmp | patterns_cmp.py:12-44 | sequential mode: every name, exhaustive distance, threshold ignored. Parallel mode: only the drained finishers, each with its thresholded distance, and the rest missing |
| PatternsCmp.UnjoinedDrainLosesPattern | patterns_cmp.py:42-43 | a drain that finds the queue empty before the last worker has delivered loses a pattern |
| PatternsCmp.PtnsCmpJoined | patterns_cmp.py:37-44 | joining before the drain gives every name its thresholded distance, and no other key |
| PatternsCmp.WorkerValueVersusExhaustive | patterns_cmp.py:53-57 | a falsy threshold gives the sequential branch's value; a truthy one is never better, and differs only when already below the threshold |
| DistanceMaps.Update | televid/televid.py:159 | `diffs.update({name: value})`. It has no ensures; `DistanceMaps.UpdateGet`, `DistanceMaps.UpdateNames` and `DistanceMaps.UpdateKeepsUniqueKeys` characterise it |
| DistanceMaps.Get | televid/televid.py:229 | `dict.get` finds a value exactly for the keys present |
| DistanceMaps.UpdateGet | televid/televid.py:159 | after `update` the key holds the new value and every other key keeps its value |
| DistanceMaps.UpdateNames | televid/televid.py:159 | an existing key keeps its position; a new key is appended |
| DistanceMaps.UpdateKeepsUniqueKeys | televid/televid.py:159 | updating keeps the keys distinct |
| DistanceMaps.UpdateSameValue | televid/televid.py:159 | re-storing a key's own value changes nothing |
| DistanceMaps.UpdateTwice | televid/televid.py:159 | the later of two updates of a key wins |
| DistanceMaps.RecordAllSpec | televid/televid.py:158-159 | merging distinct names maps each to its value, keeps other keys, keeps keys distinct, and from an empty dict yields exactly those names in order |
| Classifier.FirstMinimumUnique | televid/televid.py:231 | only one position is the first minimum |
| Classifier.FirstMin | televid/televid.py:229-231 | `min(diffs, key=diffs.get)` picks a least value, and on a tie the earliest key |
| Classifier.MinValue | televid/televid.py:230 | `min(values)` is at most every value and is one of them |
| Classifier.MaxValue | televid/televid.py:236 | `max(values)` is at least every value and is one of them |
| Classifier.MatchedPattern | televid/televid.py:231 | the matched pattern is the lower-cased name at the first minimum |
| Classifier.MatchedPatternWithValue | televid/televid.py:228-230 | with `diff_value` the pair is the first minimum's lower-cased name and its value, the least of all |
| Classifier.Mrd | televid/televid.py:234-236 | NaN exactly when every value is infinite; `inf` exactly when some value is and some is not; otherwise the difference of two of the distances that is at least every pairwise difference, that is the greatest distance minus the least |
| Classifier.TypicalRule | televid/televid.py:247 | `self.mrd < 2000 and self.matched_pattern(True)[1] > 2000`. It has no ensures; `Classifier.TypicalRuleIff` restates it over the distances, in both directions |
| Classifier.TypicalRuleIff | televid/televid.py:247 | the typical rule holds exactly when every distance is finite and above 2000 and no two are 2000 or more apart |
| Classifier.Lower | televid/televid.py:231 | `str.lower` on ASCII: the same length, no capital left, every capital `A`..`Z` replaced by the letter at the same place in `a`..`z`, and every character that is not a capital kept in place; `Classifier.LowerSpec` adds that lower-case text is fixed and lower-casing is idempotent |
| Classifier.LowerUnique | televid/televid.py:231 | the facts `Lower` ensures determine its result: any string of the same length that lowers each capital to its own letter and keeps every other character equals `Lower(s)` |
| Classifier.LowerSpec | televid/televid.py:249 | lower-casing leaves no capital, fixes lower-case text, and is idempotent |
| Classifier.Split | televid/televid.py:249 | `split('_')` yields separator-free pieces that join back to the name |
| Classifier.SplitJoin | televid/televid.py:249 | splitting a join of separator-free pieces gives the pieces back |
| Classifier.Label | televid/televid.py:249 | the label is lower-case and has no underscore |
| Classifier.LabelWithoutUnderscore | televid/televid.py:249 | a name without `_` is labelled by itself, lower-cased |
| Classifier.LabelOfPieces | televid/televid.py:249 | a name `a_b` or `a_b_...` is labelled `ab`, lower-cased |
| Classifier.LabelOfThree | televid/televid.py:249 | a name `a_b_c` is labelled `ab`, lower-cased |
| Classifier.LabelVoiceMail | tests/test_integration/test_main.py:8 | `voice_mail_c` is labelled `voicemail` |
| Classifier.LabelNoResponse | tests/test_integration/test_main.py:9-13 | `no_response_a` and `no_response_b` are both labelled `noresponse` |
| Classifier.LabelVoiceMailTwoSuffixes | tests/test_integration/test_main.py:10 | `voice_mail_d_2` is labelled `voicemail` |
| Classifier.LabelInBusy | tests/test_integration/test_main.py:12 | `in_busy` is labelled `inbusy` |
| Classifier.ResultType | televid/televid.py:239-249 | lower-case and underscore-free: `typical` under the typical rule, otherwise the label of the first minimum's name |
| Classifier.ResultTypeSpec | televid/televid.py:247-249 | the result type in terms of the distances alone: `typical` exactly under the value condition, else the label of the first minimum |
| Classifier.IsCorrect | televid/televid.py:251-256 | `filepath.name[:2] == result_type[:2]`. It has no ensures; `Classifier.IsCorrectIff` unfolds it position by position |
| Classifier.IsCorrectIff | televid/televid.py:256 | `name[:2] == type[:2]` means equal lengths up to two and equal characters at positions 0 and 1 |
| Classifier.TypicalExample | tests/test_integration/test_main.py:14 | best match `voice_mail_d_2` with poor, close distances is typical, which `typical.mp3` agrees with |
| Classifier.TestExpectationsCorrect | tests/test_integration/test_main.py:8-12 | the test's file names agree with their expected types on two characters, and a voicemail file typed `noresponse` would not |
| Riff.EncodeLE | televid/televid.py:117-120 | the `divmod(quotient, 256)` loop written recursively, giving `k` bytes. `Riff.DecodeEncode`, `Riff.EncodeDecode` and `Riff.EncodeMod` characterise it |
| Riff.DecodeLE | televid/televid.py:117-120 | a little-endian number spelled by `k` bytes is below `256^k` |
| Riff.DecodeEncode | televid/televid.py:117-120 | four rounds of `divmod(q, 256)` spell `n mod 2^32`, also for negative `n` |
| Riff.EncodeDecode | televid/televid.py:117-120 | encoding the number a byte string spells gives the bytes back |
| Riff.EncodeMod | televid/televid.py:117-120 | the encoding sees its input only modulo `256^k` |
| Riff.ChunkSizeBytes | televid/televid.py:113-120 | the `binarray` loop yields four bytes spelling the chunk size modulo 2^32 |
| Riff.Patch | televid/televid.py:113-124 | the splice keeps the bytes before and after the field, with Python's slice clamping, and the field spells `(len - 8) mod 2^32` |
| Riff.PatchRiff | televid.py:92-103 | the older revision's patch computes the same bytes |
| Riff.PatchWholeHeader | televid/televid.py:124 | for at least 8 bytes: same length, every byte outside 4..7 unchanged, and the field holds the chunk size |
| Riff.PatchFixedPointIff | televid/televid.py:113-124 | a buffer is left unchanged exactly when its field already holds the right size |
| Riff.PatchIdempotent | televid/televid.py:113-124 | patching twice is patching once |
| Riff.PatchReplacesPlaceholder | televid/televid.py:103-113 | FFmpeg's `0xFFFFFFFF` placeholder is replaced by the true chunk size |

## Left out

- Audio decoding (FFmpeg), `wavfile.read` and MFCC extraction are foreign
  calls. Feature sequences are inputs to the model.
- Loading and caching the pattern library (pickle files) and logging are
  file I/O and are not modelled.
- Timing (`identify_time`) and the batch runners and example scripts are
  not modelled.
- Floating point is not modelled. Distances are exact reals plus `Inf`. No
  rounding, no summation order, no NaN except as noted for `Mrd`.
- Inputs that raise in Python are excluded by preconditions rather than
  modelled as exceptions:
  - an empty pattern (division by a zero window);
  - frames of different coefficient counts (a numpy broadcast error,
    raised once the target is long enough to compare). `Features.Comparable`
    also excludes a one-coefficient frame against a longer one, which numpy
    would broadcast without error. Every feature sequence comes from the same
    `mfcc` call with the same settings, so all frames have the same count
    and that case does not arise;
  - `scan_step = 0` once a pattern fits in the target (`range` raises).
    A shorter target with step 0 is modelled: it gives `inf`.
- Features.WindowDist: proves "verbatim occurrence ⇒ distance 0" and
  "distance ≥ 0", but not the converse "distance 0 ⇒ verbatim". The solver
  cannot reason about real squares inside this model's context.
- Classifier.Lower: lower-cases ASCII letters only. Python's `str.lower`
  covers all of Unicode.
- Classifier.FirstMin, Classifier.MinValue, Classifier.MaxValue,
  Classifier.MatchedPattern, Classifier.MatchedPatternWithValue,
  Classifier.Mrd, Classifier.TypicalRule and Classifier.ResultType: these
  require a non-empty dict. On an empty `diffs`, Python's `min` and `max`
  raise `ValueError`, and the exception is not modelled. The classifier reads
  the `diffs` that `identify` fills, whose parallel branch takes exactly one
  result per process (`televid/televid.py:171-173`). So `diffs` is empty
  only for an empty pattern library, or when the classifier is used before
  `identify`.
- Classifier.Mrd: when every value is infinite the result is `None`, which
  stands for Python's NaN. There is no NaN arithmetic.
- TelevidParallel.IdentifyParallel: abstracts the schedule. It assumes:
  - the arrival order on the queue is an arbitrary permutation;
  - a process may be stopped by the shared flag only if another,
    undisturbed, process set it.

  It does not model at which iteration a process sees the flag, because
  the result (`inf`) is the same whichever iteration that is.
- PatternsCmp.PtnsCmp and PatternsCmp.Drain: the number of results taken
  off the queue before it looks empty is a parameter. Queue feeder threads
  and `queue.empty()` timing are not modelled.
- CmpMfccMulticore.CmpMfcc: queue feeder threads and `queue.empty()` timing
  are not modelled either. It assumes that the drain after the join
  (`cmp_mfcc_multicore.py:28-31`) sees every queued result. A feeder
  thread that has not flushed when `queue.empty()` is read would leave a
  name out there as well.
- `mp.Value('H', 0)` is a 16-bit shared counter, modelled as a boolean. The
  code only ever stores 0 or 1 in it.
- `print` in `televid.py` is output. It is modelled as the returned
  sequence of printed entries.

## Findings

| source | as written | input that shows it | evidently intended | confidence | as-written member | corrected member |
|---|---|---|---|---|---|---|
| patterns_cmp.py:42-43 | the parent drains the queue `while not queue.empty()` right after starting the workers, without joining them | any schedule in which the parent finds the queue empty before the slowest worker has delivered, e.g. no worker finished yet (`drained = 0` with a non-empty library): the returned dict misses that pattern's name, and with none finished it is empty. `televoice_identification.py:43-44` returns that dict to its caller as the result | join every worker before draining, as `cmp_mfcc_multicore.py:28-31` does, so every pattern name is a key | not executed; high (the comment on line 42 states the assumption the drain relies on) | PatternsCmp.UnjoinedDrainLosesPattern | PatternsCmp.PtnsCmpJoined |

=== FILE: arith.dfy ===
/** Facts about integer multiplication, division and remainder with a
    positive divisor (Dafny's `/` and `%`, which agree with Python's floor
    division there), proved once for the scan offsets and the byte
    encoding. */
module Arith {

  /** Flooring division undershoots by less than one divisor. */
  lemma DivTimesDivisor(n: nat, s: int)
    requires s >= 1
    ensures (n / s) * s <= n
    ensures n - (n / s) * s < s
  {
  }

  /** Multiplying by a non-negative number keeps the order. */
  lemma MulMonotone(a: int, b: int, s: int)
    requires s >= 0
    ensures a <= b ==> a * s <= b * s
  {
    assert b * s - a * s == (b - a) * s;
  }

  /** A strict order of multiples by a positive number is one of the factors. */
  lemma MulCancelLt(x: int, y: int, s: int)
    requires s >= 1 && x * s < y * s
    ensures x < y
  {
    MulMonotone(y, x, s);
  }

  /** Division by a positive number keeps the order. */
  lemma DivMonotoneNat(a: nat, b: nat, s: int)
    requires a <= b && s >= 1
    ensures a / s <= b / s
  {
    DivTimesDivisor(a, s);
    DivTimesDivisor(b, s);
    assert (b / s + 1) * s == (b / s) * s + s;
    MulCancelLt(a / s, b / s + 1, s);
  }

  /** A multiple divides back exactly. */
  lemma MulDivExact(c: nat, s: int)
    requires s >= 1
    ensures (c * s) / s == c && (c * s) % s == 0
  {
    var q := (c * s) / s;
    DivTimesDivisor(c * s, s);
    assert (c - 1) * s == c * s - s;
    assert (c + 1) * s == c * s + s;
    MulCancelLt(c - 1, q, s);
    MulCancelLt(q, c + 1, s);
  }

  /** Quotient and remainder are the only pair that reconstructs `n`. */
  lemma DivModUnique(n: int, d: int, q: int, x: int)
    requires d >= 1 && 0 <= x < d && n == q * d + x
    ensures n / d == q && n % d == x
  {
    var q' := n / d;
    assert n == q' * d + n % d;
    assert (q' + 1) * d == q' * d + d;
    assert (q + 1) * d == q * d + d;
    MulCancelLt(q, q' + 1, d);
    MulCancelLt(q', q + 1, d);
  }

  /** Multiplication distributes over addition. */
  lemma MulAddDistrib(a: int, b: int, c: int)
    ensures (a + b) * c == a * c + b * c
  {
  }

  /** Regrouping a product of three factors. */
  lemma MulRegroup(a: int, b: int, c: int)
    ensures (a * b) * c == b * (a * c)
  {
  }
}

=== FILE: classifier.dfy ===
/** The classifier on top of an identification (`televid/televid.py`): the
    best-matching pattern name, the spread between the worst and the best
    distance (`mrd`), the call type derived from them, and the check of
    that type against the recording's file name. */
module Classifier {
  import opened Optional
  import opened ExtReal
  import opened DistanceMaps

  // ---------------------------------------------------------------------
  // Best match

  /** `i` is the key `min(diffs, key=diffs.get)` picks: its value is no
      larger than any other and strictly smaller than every earlier one,
      so on a tie the first key in dict order wins. */
  predicate IsFirstMinimum(m: DistanceMap, i: nat) {
    && i < |m|
    && (forall j :: 0 <= j < |m| ==> Le(m[i].value, m[j].value))
    && (forall j :: 0 <= j < i ==> Lt(m[i].value, m[j].value))
  }

  /** At most one position is the first minimum. */
  lemma FirstMinimumUnique(m: DistanceMap, i: nat, k: nat)
    requires IsFirstMinimum(m, i) && IsFirstMinimum(m, k)
    ensures i == k
  {
    assert Le(m[i].value, m[k].value) && Le(m[k].value, m[i].value);
  }

  /** The scan `min` performs: keep the first value, replace it by any
      later value strictly smaller. Python raises on an empty dict. */
  function FirstMin(m: DistanceMap): (i: nat)
    requires |m| > 0
    ensures IsFirstMinimum(m, i)
    decreases |m|
  {
    if |m| == 1 then 0
    else
      var k := FirstMin(m[..|m| - 1]);
      assert m[..|m| - 1][k] == m[k];
      if Lt(m[|m| - 1].value, m[k].value) then |m| - 1 else k
  }

  /** `min(diffs.values())`: the least distance. */
  function MinValue(m: DistanceMap): (r: Dist)
    requires |m| > 0
    ensures forall j :: 0 <= j < |m| ==> Le(r, m[j].value)
    ensures exists j :: 0 <= j < |m| && r == m[j].value
  {
    m[FirstMin(m)].value
  }

  /** `max(diffs.values())`: the greatest distance. */
  function MaxValue(m: DistanceMap): (r: Dist)
    requires |m| > 0
    ensures forall j :: 0 <= j < |m| ==> Le(m[j].value, r)
    ensures exists j :: 0 <= j < |m| && r == m[j].value
    decreases |m|
  {
    if |m| == 1 then m[0].value
    else
      var r := MaxValue(m[..|m| - 1]);
      assert forall j :: 0 <= j < |m| - 1 ==> m[..|m| - 1][j] == m[j];
      if Lt(r, m[|m| - 1].value) then m[|m| - 1].value else r
  }

  /** `matched_pattern()`: the lower-cased name of the best match. */
  function MatchedPattern(m: DistanceMap): (name: string)
    requires |m| > 0
    ensures exists i: nat :: IsFirstMinimum(m, i) && name == Lower(m[i].name)
  {
    Lower(m[FirstMin(m)].name)
  }

  /** `matched_pattern(diff_value=True)`: the lower-cased name of the best
      match together with the least distance, which is that match's own. */
  function MatchedPatternWithValue(m: DistanceMap): (r: (string, Dist))
    requires |m| > 0
    ensures exists i: nat :: IsFirstMinimum(m, i) && r.0 == Lower(m[i].name) && r.1 == m[i].value
    ensures forall j :: 0 <= j < |m| ==> Le(r.1, m[j].value)
  {
    (MatchedPattern(m), MinValue(m))
  }

  // ---------------------------------------------------------------------
  // Spread

  /** `mrd = max(values) - min(values)`. `None` stands for the NaN of
      `inf - inf`, which arises exactly when every distance is infinite;
      `Some(Inf)` is `inf - finite`. A finite spread is the difference of
      two of the distances and at least every such difference, so it is
      the greatest distance minus the least. */
  function Mrd(m: DistanceMap): (r: Option<Dist>)
    requires |m| > 0
    ensures r.None? <==> forall j :: 0 <= j < |m| ==> m[j].value.Inf?
    ensures r == Some(Inf) <==> (exists j :: 0 <= j < |m| && m[j].value.Inf?) && (exists j :: 0 <= j < |m| && m[j].value.Fin?)
    ensures r.Some? && r.value.Fin? ==> r.value.v >= 0.0
    ensures r.Some? && r.value.Fin? ==> forall i, j :: 0 <= i < |m| && 0 <= j < |m| ==> m[i].value.v - m[j].value.v <= r.value.v
    ensures r.Some? && r.value.Fin? ==> exists i, j :: 0 <= i < |m| && 0 <= j < |m| && r.value.v == m[i].value.v - m[j].value.v
  {
    var hi := MaxValue(m);
    var lo := MinValue(m);
    if lo.Inf? then None
    else if hi.Inf? then Some(Inf)
    else Some(Fin(hi.v - lo.v))
  }

  /** `mrd < bound`: false for `inf` and for NaN. */
  predicate MrdBelow(m: DistanceMap, bound: real)
    requires |m| > 0
  {
    Mrd(m).Some? && Below(Mrd(m).value, bound)
  }

  /** The fixed bound of the typical rule, set by trial and error. */
  const TypicalBound: real := 2000.0

  /** The typical rule: the distances are close together (`mrd < 2000`)
      and even the best one is poor (`> 2000`). */
  predicate TypicalRule(m: DistanceMap)
    requires |m| > 0
  {
    MrdBelow(m, TypicalBound) && Above(MinValue(m), TypicalBound)
  }

  /** The typical rule holds exactly when every distance is finite and above
      2000 and any two of them are less than 2000 apart. */
  lemma TypicalRuleIff(m: DistanceMap)
    requires |m| > 0
    ensures TypicalRule(m) <==>
      && (forall j :: 0 <= j < |m| ==> m[j].value.Fin? && m[j].value.v > TypicalBound)
      && (forall i, j :: 0 <= i < |m| && 0 <= j < |m| ==> m[i].value.v - m[j].value.v < TypicalBound)
  {
    var lo := MinValue(m);
    if TypicalRule(m) {
      var d := Mrd(m).value.v;
      assert forall j :: 0 <= j < |m| ==> m[j].value.Fin? && m[j].value.v > TypicalBound by {
        assert forall j :: 0 <= j < |m| ==> Le(lo, m[j].value);
      }
      assert forall i, j :: 0 <= i < |m| && 0 <= j < |m| ==> m[i].value.v - m[j].value.v <= d;
    }
  }

  // ---------------------------------------------------------------------
  // Labels

  /** ASCII lower-casing of one character. */
  function LowerChar(c: char): char {
    if 'A' <= c <= 'Z' then (c as int + 32) as char else c
  }

  /** `str.lower()` on ASCII letters: the same length, no capital left,
      every capital replaced by its own lower-case letter, and every other
      character kept in place. */
  function Lower(s: string): (r: string)
    ensures |r| == |s| && IsLower(r)
    ensures forall i :: 0 <= i < |s| && 'A' <= s[i] <= 'Z' ==> r[i] as int - 'a' as int == s[i] as int - 'A' as int
    ensures forall i :: 0 <= i < |s| && !('A' <= s[i] <= 'Z') ==> r[i] == s[i]
  {
    seq(|s|, i requires 0 <= i < |s| => LowerChar(s[i]))
  }

  /** The three per-character facts of `Lower` pin its result: any string
      that keeps the length, lowers each capital to its own letter and
      keeps every other character is `Lower(s)`. */
  lemma LowerUnique(s: string, r: string)
    requires |r| == |s|
    requires forall i :: 0 <= i < |s| && 'A' <= s[i] <= 'Z' ==> r[i] as int - 'a' as int == s[i] as int - 'A' as int
    requires forall i :: 0 <= i < |s| && !('A' <= s[i] <= 'Z') ==> r[i] == s[i]
    ensures r == Lower(s)
  {
  }

  /** No ASCII capital letter. */
  predicate IsLower(s: string) {
    forall i :: 0 <= i < |s| ==> !('A' <= s[i] <= 'Z')
  }

  /** Lower-casing leaves no capital, fixes lower-case text, and so is
      idempotent. */
  lemma LowerSpec(s: string)
    ensures IsLower(Lower(s))
    ensures IsLower(s) ==> Lower(s) == s
    ensures Lower(Lower(s)) == Lower(s)
  {
  }

  /** `s.split(sep)`: the pieces between separators, at least one. */
  function Split(s: string, sep: char): (parts: seq<string>)
    ensures |parts| >= 1
    ensures forall k :: 0 <= k < |parts| ==> sep !in parts[k]
    ensures Join(parts, sep) == s
    decreases |s|
  {
    if |s| == 0 then [""]
    else
      var rest := Split(s[1..], sep);
      if s[0] == sep then
        assert [""] + rest == [""] + rest[..];
        [""] + rest
      else
        var parts := [[s[0]] + rest[0]] + rest[1..];
        JoinConsHead(rest, sep, s[0]);
        parts
  }

  /** `sep.join(parts)`. */
  function Join(parts: seq<string>, sep: char): string
    requires |parts| >= 1
    decreases |parts|
  {
    if |parts| == 1 then parts[0]
    else parts[0] + [sep] + Join(parts[1..], sep)
  }

  /** Prefixing the first piece prefixes the joined text. */
  lemma JoinConsHead(parts: seq<string>, sep: char, c: char)
    requires |parts| >= 1
    ensures Join([[c] + parts[0]] + parts[1..], sep) == [c] + Join(parts, sep)
  {
    var q := [[c] + parts[0]] + parts[1..];
    if |parts| > 1 {
      assert q[1..] == parts[1..];
    }
  }

  /** Splitting a join of separator-free pieces gives the pieces back. */
  lemma {:induction false} SplitJoin(parts: seq<string>, sep: char)
    requires |parts| >= 1
    requires forall k :: 0 <= k < |parts| ==> sep !in parts[k]
    ensures Split(Join(parts, sep), sep) == parts
    decreases |parts|, |parts[0]|
  {
    var s := Join(parts, sep);
    if |parts[0]| > 0 {
      var tail := [parts[0][1..]] + parts[1..];
      assert sep !in parts[0][1..] by {
        assert forall x :: x in parts[0][1..] ==> x in parts[0];
      }
      SplitJoin(tail, sep);
      JoinConsHead(tail, sep, parts[0][0]);
      assert [parts[0][0]] + tail[0] == parts[0];
      assert tail[1..] == parts[1..];
      assert [[parts[0][0]] + tail[0]] + tail[1..] == parts;
      assert s[0] == parts[0][0] && s[1..] == Join(tail, sep);
    } else if |parts| > 1 {
      SplitJoin(parts[1..], sep);
      assert s == [sep] + Join(parts[1..], sep);
      assert s[1..] == Join(parts[1..], sep);
    }
  }

  /** `''.join(parts[:2])`. */
  function JoinFirstTwo(parts: seq<string>): string
    requires |parts| >= 1
  {
    if |parts| >= 2 then parts[0] + parts[1] else parts[0]
  }

  /** The type named by a pattern: the first two underscore-separated
      pieces of its (lower-cased) name, concatenated and lower-cased. */
  function Label(name: string): (r: string)
    ensures IsLower(r)
    ensures '_' !in r
  {
    var parts := Split(name, '_');
    var joined := JoinFirstTwo(parts);
    assert '_' !in joined by {
      assert forall x :: x in joined ==> x in parts[0] || (|parts| >= 2 && x in parts[1]);
    }
    LowerSpec(joined);
    Lower(joined)
  }

  /** A name without underscore is its own label, lower-cased. */
  lemma LabelWithoutUnderscore(name: string)
    requires '_' !in name
    ensures Label(name) == Lower(name)
  {
    SplitJoin([name], '_');
  }

  /** The label depends on the name only through its pieces. */
  lemma LabelOfSplit(name: string, parts: seq<string>)
    requires Split(name, '_') == parts
    ensures Label(name) == Lower(JoinFirstTwo(parts))
  {
  }

  /** Separator-free pieces stay separator-free when listed together. */
  lemma PiecesWithoutSeparator(a: string, b: string, rest: seq<string>)
    requires '_' !in a && '_' !in b
    requires forall k :: 0 <= k < |rest| ==> '_' !in rest[k]
    ensures forall k :: 0 <= k < |[a, b] + rest| ==> '_' !in ([a, b] + rest)[k]
  {
    var parts := [a, b] + rest;
    forall k | 2 <= k < |parts|
      ensures '_' !in parts[k]
    {
      assert parts[k] == rest[k - 2];
    }
  }

  /** A name `a_b` or `a_b_rest` with separator-free `a` and `b` is
      labelled `ab`, lower-cased. */
  lemma LabelOfPieces(a: string, b: string, rest: seq<string>)
    requires '_' !in a && '_' !in b
    requires forall k :: 0 <= k < |rest| ==> '_' !in rest[k]
    ensures Label(Join([a, b] + rest, '_')) == Lower(a + b)
  {
    var parts := [a, b] + rest;
    PiecesWithoutSeparator(a, b, rest);
    SplitJoin(parts, '_');
    LabelOfSplit(Join(parts, '_'), parts);
    assert JoinFirstTwo(parts) == a + b;
  }

  /** Joining three pieces puts a separator between each two. */
  lemma JoinThree(a: string, b: string, c: string, sep: char)
    ensures Join([a, b, c], sep) == a + [sep] + b + [sep] + c
  {
    assert [a, b, c][1..] == [b, c];
    assert [b, c][1..] == [c];
    assert Join([b, c], sep) == b + [sep] + c;
    assert Join([a, b, c], sep) == a + [sep] + (b + [sep] + c);
  }

  /** A name `a_b_c` with separator-free pieces is labelled `ab`,
      lower-cased. */
  lemma LabelOfThree(a: string, b: string, c: string)
    requires '_' !in a && '_' !in b && '_' !in c
    ensures Label(a + "_" + b + "_" + c) == Lower(a + b)
  {
    LabelOfPieces(a, b, [c]);
    assert [a, b] + [c] == [a, b, c];
    JoinThree(a, b, c, '_');
  }

  /** Labels of the pattern names of the integration test. */
  lemma LabelVoiceMail(name: string)
    requires name == "voice_mail_c"
    ensures Label(name) == "voicemail"
  {
    var a, b, c := "voice", "mail", "c";
    assert name == a + "_" + b + "_" + c;
    LabelOfThree(a, b, c);
    assert Lower(a + b) == "voicemail" by {
      LowerSpec(a + b);
    }
  }

  lemma LabelVoiceMailTwoSuffixes(name: string)
    requires name == "voice_mail_d_2"
    ensures Label(name) == "voicemail"
  {
    var a, b := "voice", "mail";
    assert name == Join([a, b] + ["d", "2"], '_') by {
      assert [a, b] + ["d", "2"] == [a, b, "d", "2"];
      assert [a, b, "d", "2"][1..] == [b, "d", "2"];
      JoinThree(b, "d", "2", '_');
    }
    LabelOfPieces(a, b, ["d", "2"]);
    assert Lower(a + b) == "voicemail" by {
      LowerSpec(a + b);
    }
  }

  /** Both no-response patterns of the test, `no_response_a` and
      `no_response_b`, share one label. */
  lemma LabelNoResponse(name: string, suffix: string)
    requires suffix == "a" || suffix == "b"
    requires name == "no_response_" + suffix
    ensures Label(name) == "noresponse"
  {
    var a, b := "no", "response";
    assert name == a + "_" + b + "_" + suffix;
    assert Label(name) == Lower(a + b) by {
      assert '_' !in suffix;
      LabelOfThree(a, b, suffix);
    }
    assert Lower(a + b) == "noresponse" by {
      LowerSpec(a + b);
    }
  }

  lemma LabelInBusy(name: string)
    requires name == "in_busy"
    ensures Label(name) == "inbusy"
  {
    var a, b := "in", "busy";
    assert name == Join([a, b] + [], '_') by {
      assert [a, b] + [] == [a, b];
      assert [a, b][1..] == [b];
    }
    LabelOfPieces(a, b, []);
    assert Lower(a + b) == "inbusy" by {
      LowerSpec(a + b);
    }
  }

  // ---------------------------------------------------------------------
  // Result

  /** `result_type`: `"typical"` when the typical rule holds, otherwise the
      label of the best match. */
  function ResultType(m: DistanceMap): (r: string)
    requires |m| > 0
    ensures IsLower(r) && '_' !in r
    ensures TypicalRule(m) ==> r == "typical"
    ensures !TypicalRule(m) ==> exists i: nat :: IsFirstMinimum(m, i) && r == Label(Lower(m[i].name))
  {
    if TypicalRule(m) then "typical" else Label(MatchedPattern(m))
  }

  /** The result type in terms of the distances alone: with `i` the first
      minimum, the call is typical exactly when every distance is finite
      and above 2000 and no two are 2000 or more apart; otherwise it is the
      label of pattern `i`. */
  lemma ResultTypeSpec(m: DistanceMap, i: nat)
    requires IsFirstMinimum(m, i)
    ensures ResultType(m) ==
      if && (forall j :: 0 <= j < |m| ==> m[j].value.Fin? && m[j].value.v > TypicalBound)
         && (forall a, b :: 0 <= a < |m| && 0 <= b < |m| ==> m[a].value.v - m[b].value.v < TypicalBound)
      then "typical" else Label(Lower(m[i].name))
  {
    TypicalRuleIff(m);
    FirstMinimumUnique(m, i, FirstMin(m));
  }

  /** `s[:2]`. */
  function Prefix2(s: string): string {
    if |s| < 2 then s else s[..2]
  }

  /** `is_correct`: the file name and the result type agree on their first
      two characters. */
  predicate IsCorrect(fileName: string, resultType: string) {
    Prefix2(fileName) == Prefix2(resultType)
  }

  /** Agreement on the first two characters, position by position: the
      two strings are equally long up to two characters and agree on each
      of those characters. */
  lemma IsCorrectIff(f: string, t: string)
    ensures IsCorrect(f, t) <==>
      && (|f| >= 1 <==> |t| >= 1)
      && (|f| >= 2 <==> |t| >= 2)
      && (|f| >= 1 && |t| >= 1 ==> f[0] == t[0])
      && (|f| >= 2 && |t| >= 2 ==> f[1] == t[1])
  {
    var pf, pt := Prefix2(f), Prefix2(t);
    assert |pf| == if |f| < 2 then |f| else 2;
    assert |pt| == if |t| < 2 then |t| else 2;
    assert forall k :: 0 <= k < |pf| ==> pf[k] == f[k];
    assert forall k :: 0 <= k < |pt| ==> pt[k] == t[k];
    if |pf| == |pt| && (|pf| >= 1 ==> pf[0] == pt[0]) && (|pf| >= 2 ==> pf[1] == pt[1]) {
      assert pf == pt;
    }
  }

  /** The last integration-test case: the best match is `voice_mail_d_2`,
      but every distance is poor and close to the others, so the call is
      typical, which the file name `typical.mp3` agrees with. */
  lemma TypicalExample(best: string, other: string)
    requires best == "voice_mail_d_2" && other != best
    ensures var m := [Entry(best, Fin(2500.0)), Entry(other, Fin(3100.0))];
      && MatchedPattern(m) == best
      && ResultType(m) == "typical"
      && IsCorrect("typical.mp3", ResultType(m))
  {
    var m := [Entry(best, Fin(2500.0)), Entry(other, Fin(3100.0))];
    assert FirstMin(m) == 0 by {
      assert IsFirstMinimum(m, 0);
      FirstMinimumUnique(m, 0, FirstMin(m));
    }
    assert Lower(best) == best by {
      assert IsLower(best);
      LowerSpec(best);
    }
    assert TypicalRule(m) by {
      TypicalRuleIff(m);
    }
    assert Prefix2("typical.mp3") == "ty";
  }

  /** The file names and expected types of the integration test agree on
      their first two characters, as `is_correct` requires. */
  lemma TestExpectationsCorrect()
    ensures IsCorrect("voicemail_c.mp3", "voicemail")
    ensures IsCorrect("noresponse_b.mp3", "noresponse")
    ensures IsCorrect("voicemail_d_2.mp3", "voicemail")
    ensures IsCorrect("inbusy.mp3", "inbusy")
    ensures !IsCorrect("voicemail_c.mp3", "noresponse")
  {
    assert Prefix2("voicemail_c.mp3") == "vo" && Prefix2("voicemail") == "vo";
    assert Prefix2("noresponse_b.mp3") == "no" && Prefix2("noresponse") == "no";
    assert Prefix2("voicemail_d_2.mp3") == "vo";
    assert Prefix2("inbusy.mp3") == "in" && Prefix2("inbusy") == "in";
  }
}

=== FILE: cmp_mfcc.dfy ===
/** The first revision (`cmp_mfcc.py`): every pattern of the dict is
    scanned exhaustively and its distance stored under its name. */
module CmpMfcc {
  import opened Optional
  import opened ExtReal
  import opened Features
  import opened Scan
  import opened DistanceMaps
  import opened Scanners

  /** `cmp_mfcc(id_ptns, target_ptn)`: a fresh dict whose keys are the
      pattern names in dict order, each holding the least normalised window
      distance of its pattern. */
  method CmpMfcc(idPtns: Library, targetPtn: FeatureSeq) returns (idDiff: DistanceMap)
    requires Scannable(targetPtn, idPtns) && UniqueNames(idPtns)
    ensures Names(idDiff) == NamesOf(idPtns)
    ensures forall j :: 0 <= j < |idPtns| ==> Get(idDiff, idPtns[j].name) == Some(Exhaustive(targetPtn, idPtns[j].pattern))
  {
    ghost var names := NamesOf(idPtns);
    ghost var values := ExhaustiveValues(targetPtn, idPtns);
    idDiff := [];
    var k := 0;
    while k < |idPtns|
      invariant 0 <= k <= |idPtns|
      invariant idDiff == RecordAll([], names[..k], values[..k])
    {
      var d := ScanAll(targetPtn, idPtns[k].pattern);
      RecordAllSnoc([], names, values, k);
      idDiff := Update(idDiff, idPtns[k].name, d);
      k := k + 1;
    }
    assert names[..k] == names && values[..k] == values;
    RecordAllSpec([], names, values);
  }
}

=== FILE: cmp_mfcc_multicore.dfy ===
/** The multi-process revision (`cmp_mfcc_multicore.py`): one worker per
    pattern scans exhaustively and puts `{name: distance}` on a queue; the
    parent joins every worker, then drains the queue into the result dict.
    The workers' interleaving is the order in which their results reach the
    queue, a permutation of the patterns given as a parameter. */
module CmpMfccMulticore {
  import opened Optional
  import opened ExtReal
  import opened Features
  import opened Scan
  import opened DistanceMaps
  import opened Scanners
  import opened QueueMerge

  /** `cmp_proc(id_item, target_ptn, queue)`: the item it puts on the queue. */
  method CmpProc(idItem: Golden, targetPtn: FeatureSeq) returns (res: Entry)
    requires Comparable(targetPtn, idItem.pattern)
    ensures res.name == idItem.name
    ensures res.value == Exhaustive(targetPtn, idItem.pattern)
  {
    var d := ScanAll(targetPtn, idItem.pattern);
    res := Entry(idItem.name, d);
  }

  /** `cmp_mfcc(id_ptns, target_ptn)`: after joining every worker the
      queue holds one result per pattern, so the dict has exactly the
      pattern names as keys (in completion order) and each holds the same
      exhaustive distance the sequential `cmp_mfcc.py` computes. */
  method CmpMfcc(idPtns: Library, targetPtn: FeatureSeq, order: seq<nat>) returns (idDiff: DistanceMap)
    requires Scannable(targetPtn, idPtns) && UniqueNames(idPtns)
    requires IsCompletionOrder(order, |idPtns|)
    ensures Names(idDiff) == OrderedNames(idPtns, order)
    ensures forall nm :: nm in Names(idDiff) <==> nm in NamesOf(idPtns)
    ensures forall j :: 0 <= j < |idPtns| ==> Get(idDiff, idPtns[j].name) == Some(Exhaustive(targetPtn, idPtns[j].pattern))
  {
    ghost var vals := ExhaustiveValues(targetPtn, idPtns);
    idDiff := [];
    var k := 0;
    while k < |order|
      invariant 0 <= k <= |order|
      invariant idDiff == Drained(idPtns, vals, order, k)
    {
      var res := CmpProc(idPtns[order[k]], targetPtn);
      DrainedNext(idPtns, vals, order, k);
      idDiff := Update(idDiff, res.name, res.value);
      k := k + 1;
    }
    DrainedSpec(idPtns, vals, order, k);
    assert OrderedNames(idPtns, order)[..k] == OrderedNames(idPtns, order);
    DrainedAll(idPtns, vals, order);
  }
}

=== FILE: distance_maps.dfy ===
/** The result dict `{name: distance}` of an identification, in insertion
    order, with the semantics of `dict.update` for one key: an existing key
    keeps its position and takes the new value, a new key is appended. */
module DistanceMaps {
  import opened Optional
  import opened ExtReal

  datatype Entry = Entry(name: string, value: Dist)

  type DistanceMap = seq<Entry>

  /** The keys, in insertion order. */
  function Names(m: DistanceMap): (r: seq<string>)
    ensures |r| == |m|
    ensures forall i :: 0 <= i < |m| ==> r[i] == m[i].name
  {
    if |m| == 0 then [] else [m[0].name] + Names(m[1..])
  }

  /** Keys of a dict are pairwise distinct. */
  predicate UniqueKeys(m: DistanceMap) {
    forall i, j :: 0 <= i < j < |m| ==> m[i].name != m[j].name
  }

  /** `m.get(name)`. */
  function Get(m: DistanceMap, name: string): (r: Option<Dist>)
    ensures r.Some? <==> name in Names(m)
  {
    if |m| == 0 then None
    else if m[0].name == name then Some(m[0].value)
    else Get(m[1..], name)
  }

  /** `m.update({name: value})`. */
  function Update(m: DistanceMap, name: string, value: Dist): DistanceMap {
    if |m| == 0 then [Entry(name, value)]
    else if m[0].name == name then [Entry(name, value)] + m[1..]
    else [m[0]] + Update(m[1..], name, value)
  }

  /** After the update the key holds the new value and every other key
      holds what it held before. */
  lemma {:induction false} UpdateGet(m: DistanceMap, name: string, value: Dist, other: string)
    ensures Get(Update(m, name, value), other) == if other == name then Some(value) else Get(m, other)
    decreases |m|
  {
    if |m| > 0 && m[0].name != name {
      var r := Update(m, name, value);
      assert r[1..] == Update(m[1..], name, value);
      UpdateGet(m[1..], name, value, other);
    }
  }

  /** An existing key keeps its position; a new key is appended. */
  lemma {:induction false} UpdateNames(m: DistanceMap, name: string, value: Dist)
    ensures name in Names(m) ==> Names(Update(m, name, value)) == Names(m)
    ensures name !in Names(m) ==> Names(Update(m, name, value)) == Names(m) + [name]
    decreases |m|
  {
    if |m| > 0 && m[0].name != name {
      var r := Update(m, name, value);
      assert r[1..] == Update(m[1..], name, value);
      UpdateNames(m[1..], name, value);
      assert Names(m) == [m[0].name] + Names(m[1..]);
      assert Names(r) == [m[0].name] + Names(r[1..]);
    } else if |m| > 0 {
      var r := Update(m, name, value);
      assert r[1..] == m[1..];
      assert Names(m) == [m[0].name] + Names(m[1..]);
      assert Names(r) == [name] + Names(r[1..]);
    }
  }

  /** Updating keeps the keys pairwise distinct. */
  lemma UpdateKeepsUniqueKeys(m: DistanceMap, name: string, value: Dist)
    requires UniqueKeys(m)
    ensures UniqueKeys(Update(m, name, value))
  {
    var r := Update(m, name, value);
    UpdateNames(m, name, value);
    var ns := Names(r);
    assert forall i :: 0 <= i < |r| ==> r[i].name == ns[i];
  }

  /** Updating a key with the value it already holds changes nothing. */
  lemma {:induction false} UpdateSameValue(m: DistanceMap, name: string)
    requires UniqueKeys(m)
    requires name in Names(m)
    ensures Update(m, name, Get(m, name).value) == m
    decreases |m|
  {
    if m[0].name != name {
      assert name in Names(m[1..]);
      UpdateSameValue(m[1..], name);
    }
  }

  /** The last of two updates of one key wins. */
  lemma {:induction false} UpdateTwice(m: DistanceMap, name: string, a: Dist, b: Dist)
    ensures Update(Update(m, name, a), name, b) == Update(m, name, b)
    decreases |m|
  {
    if |m| > 0 && m[0].name != name {
      UpdateTwice(m[1..], name, a, b);
    }
  }

  /** No name occurs twice. */
  predicate DistinctNames(names: seq<string>) {
    forall i, j :: 0 <= i < j < |names| ==> names[i] != names[j]
  }

  /** The values part of "`r` is the dict `before` after
      `d[names[j]] = values[j]` for each of the first `|values|` names in
      turn": those names hold their values and every other key keeps what
      it held. */
  ghost predicate RecordsValues(before: DistanceMap, r: DistanceMap, names: seq<string>, values: seq<Dist>)
    requires |values| <= |names|
  {
    && (forall j :: 0 <= j < |values| ==> Get(r, names[j]) == Some(values[j]))
    && (forall nm :: nm !in names[..|values|] ==> Get(r, nm) == Get(before, nm))
  }

  /** The keys part of the same statement: from an empty dict the keys
      are those names in order, and distinct keys stay distinct. */
  predicate RecordsKeys(before: DistanceMap, r: DistanceMap, names: seq<string>, k: nat)
    requires k <= |names|
  {
    && (before == [] ==> Names(r) == names[..k])
    && (UniqueKeys(before) ==> UniqueKeys(r))
  }

  /** Both parts together. */
  ghost predicate Records(before: DistanceMap, r: DistanceMap, names: seq<string>, values: seq<Dist>)
    requires |values| <= |names|
  {
    RecordsValues(before, r, names, values) && RecordsKeys(before, r, names, |values|)
  }

  /** Recording the next name keeps the values part. */
  lemma RecordsValuesNext(before: DistanceMap, r: DistanceMap, names: seq<string>, values: seq<Dist>, v: Dist)
    requires DistinctNames(names) && |values| < |names|
    requires RecordsValues(before, r, names, values)
    ensures RecordsValues(before, Update(r, names[|values|], v), names, values + [v])
  {
    var k := |values|;
    var name := names[k];
    var r' := Update(r, name, v);
    var values' := values + [v];
    assert names[..k + 1] == names[..k] + [name];
    forall j | 0 <= j <= k
      ensures Get(r', names[j]) == Some(values'[j])
    {
      UpdateGet(r, name, v, names[j]);
    }
    forall nm | nm !in names[..k + 1]
      ensures Get(r', nm) == Get(before, nm)
    {
      UpdateGet(r, name, v, nm);
    }
  }

  /** Recording the next name keeps the keys part. */
  lemma RecordsKeysNext(before: DistanceMap, r: DistanceMap, names: seq<string>, k: nat, v: Dist)
    requires DistinctNames(names) && k < |names|
    requires RecordsKeys(before, r, names, k)
    requires forall nm :: nm !in names[..k] ==> Get(r, nm) == Get(before, nm)
    ensures RecordsKeys(before, Update(r, names[k], v), names, k + 1)
  {
    var name := names[k];
    assert names[..k + 1] == names[..k] + [name];
    assert name !in names[..k];
    UpdateNames(r, name, v);
    if UniqueKeys(before) {
      UpdateKeepsUniqueKeys(r, name, v);
    }
    if before == [] {
      assert Get(r, name) == None;
    }
  }

  /** Recording the next name extends the record by one value. */
  lemma RecordsNext(before: DistanceMap, r: DistanceMap, names: seq<string>, values: seq<Dist>, v: Dist)
    requires DistinctNames(names) && |values| < |names|
    requires Records(before, r, names, values)
    ensures Records(before, Update(r, names[|values|], v), names, values + [v])
  {
    RecordsValuesNext(before, r, names, values, v);
    RecordsKeysNext(before, r, names, |values|, v);
  }

  /** Once every name is recorded: each name holds its value, every other
      key keeps its old value, and from an empty dict the keys are exactly
      the names in order. */
  lemma RecordsComplete(before: DistanceMap, r: DistanceMap, names: seq<string>, values: seq<Dist>)
    requires |values| == |names|
    requires Records(before, r, names, values)
    ensures forall j :: 0 <= j < |names| ==> Get(r, names[j]) == Some(values[j])
    ensures forall nm :: nm !in names ==> Get(r, nm) == Get(before, nm)
    ensures before == [] ==> Names(r) == names
    ensures UniqueKeys(before) ==> UniqueKeys(r)
  {
    assert names[..|values|] == names;
  }

  /** The dict `before` after `d[names[j]] = values[j]` for each `j` in turn:
      the merge a loop over a library (or over a queue of results)
      performs. */
  function RecordAll(before: DistanceMap, names: seq<string>, values: seq<Dist>): DistanceMap
    requires |names| == |values|
    decreases |names|
  {
    if |names| == 0 then before
    else Update(RecordAll(before, names[..|names| - 1], values[..|values| - 1]), names[|names| - 1], values[|values| - 1])
  }

  /** Recording one more name extends the merge. */
  lemma RecordAllSnoc(before: DistanceMap, names: seq<string>, values: seq<Dist>, k: nat)
    requires |names| == |values| && k < |names|
    ensures RecordAll(before, names[..k + 1], values[..k + 1]) == Update(RecordAll(before, names[..k], values[..k]), names[k], values[k])
  {
    assert names[..k + 1][..k] == names[..k];
    assert values[..k + 1][..k] == values[..k];
  }

  /** Every prefix of the merge records its names and values. */
  lemma {:induction false} RecordAllRecords(before: DistanceMap, names: seq<string>, values: seq<Dist>, k: nat)
    requires |names| == |values| && k <= |names|
    requires DistinctNames(names)
    ensures Records(before, RecordAll(before, names[..k], values[..k]), names, values[..k])
    decreases k
  {
    if k > 0 {
      RecordAllRecords(before, names, values, k - 1);
      RecordAllSnoc(before, names, values, k - 1);
      assert values[..k - 1] + [values[k - 1]] == values[..k];
      RecordsNext(before, RecordAll(before, names[..k - 1], values[..k - 1]), names, values[..k - 1], values[k - 1]);
    } else {
      assert names[..0] == [] && values[..0] == [];
    }
  }

  /** With distinct names, the merge maps each name to its value, leaves
      every other key of `before` alone, keeps keys distinct, and from an
      empty dict has exactly the names as keys, in order. */
  lemma RecordAllSpec(before: DistanceMap, names: seq<string>, values: seq<Dist>)
    requires |names| == |values|
    requires DistinctNames(names)
    ensures var r := RecordAll(before, names, values);
      && (forall j :: 0 <= j < |names| ==> Get(r, names[j]) == Some(values[j]))
      && (forall nm :: nm !in names ==> Get(r, nm) == Get(before, nm))
      && (before == [] ==> Names(r) == names)
      && (UniqueKeys(before) ==> UniqueKeys(r))
  {
    RecordAllRecords(before, names, values, |names|);
    assert names[..|names|] == names && values[..|values|] == values;
    RecordsComplete(before, RecordAll(before, names, values), names, values);
  }
}

=== FILE: ext_real.dfy ===
/** Distances as the matcher produces them: a non-negative real, or positive
    infinity when no window of the target could be compared with the pattern.
    Python's `math.inf` is the `Inf` constructor; no other IEEE value (NaN,
    negative infinity, rounding) is modelled. */
module ExtReal {

  datatype Dist = Fin(v: real) | Inf

  /** `a < b` on extended reals: every finite value is below `Inf`,
      and `Inf` is below nothing. */
  predicate Lt(a: Dist, b: Dist) {
    match (a, b)
    case (Fin(x), Fin(y)) => x < y
    case (Fin(_), Inf) => true
    case (Inf, _) => false
  }

  /** `a <= b` on extended reals. */
  predicate Le(a: Dist, b: Dist) {
    !Lt(b, a)
  }

  /** Python's two-argument `min(a, b)`: the first argument unless the second is
      strictly smaller. */
  function Min(a: Dist, b: Dist): (r: Dist)
    ensures Le(r, a) && Le(r, b)
    ensures r == a || r == b
  {
    if Lt(b, a) then b else a
  }

  /** The comparison `d < t` against a real threshold; `inf < t` is false. */
  predicate Below(d: Dist, t: real) {
    d.Fin? && d.v < t
  }

  /** The comparison `d > t` against a real constant; `inf > t` is true. */
  predicate Above(d: Dist, t: real) {
    d.Inf? || d.v > t
  }

  /** `d / w` for a positive window length `w`; `inf / w` stays infinite. */
  function Norm(d: Dist, w: nat): (r: Dist)
    requires w > 0
    ensures r.Inf? <==> d.Inf?
    ensures d.Fin? ==> r.v * (w as real) == d.v
  {
    match d
    case Fin(x) => Fin(x / (w as real))
    case Inf => Inf
  }

  /** Dividing by a positive real keeps the order of two reals. */
  lemma DivMonotone(x: real, y: real, w: real)
    requires w > 0.0
    ensures x <= y <==> x / w <= y / w
  {
  }

  /** Normalising by a positive length keeps the order of two distances. */
  lemma NormMonotone(a: Dist, b: Dist, w: nat)
    requires w > 0
    ensures Le(a, b) <==> Le(Norm(a, w), Norm(b, w))
  {
    if a.Fin? && b.Fin? {
      DivMonotone(a.v, b.v, w as real);
    }
  }

  /** `Le` is a total preorder on distances: transitivity. */
  lemma LeTrans(a: Dist, b: Dist, c: Dist)
    requires Le(a, b) && Le(b, c)
    ensures Le(a, c)
  {
  }
}

=== FILE: features.dfy ===
/** Feature sequences (MFCC matrices) and the squared-difference distance
    between a pattern and one same-length window of a target. A feature
    sequence is a list of frames; every frame of a target and of every
    pattern compared with it has the same dimension. */
module Features {

  type Frame = seq<real>
  type FeatureSeq = seq<Frame>

  /** A named reference ("golden") pattern: one item of the pattern dict. */
  datatype Golden = Golden(name: string, pattern: FeatureSeq)

  /** The pattern dict, in insertion order. */
  type Library = seq<Golden>

  /** Every frame of the target has the dimension of every frame of the
      pattern, so `target[i:i + W] - pattern` is an element-wise difference. */
  predicate Compatible(target: FeatureSeq, pattern: FeatureSeq) {
    forall i, j :: 0 <= i < |target| && 0 <= j < |pattern| ==> |target[i]| == |pattern[j]|
  }

  /** What every matcher revision needs of one pattern: a non-empty window
      (the result is divided by its length) of the target's dimension. */
  predicate Comparable(target: FeatureSeq, pattern: FeatureSeq) {
    |pattern| > 0 && Compatible(target, pattern)
  }

  /** The dict's keys, in insertion order. */
  function NamesOf(lib: Library): (r: seq<string>)
    ensures |r| == |lib|
    ensures forall k :: 0 <= k < |lib| ==> r[k] == lib[k].name
  {
    seq(|lib|, k requires 0 <= k < |lib| => lib[k].name)
  }

  /** Names are dict keys, so they are pairwise distinct. */
  predicate UniqueNames(lib: Library) {
    forall i, j :: 0 <= i < j < |lib| ==> lib[i].name != lib[j].name
  }

  /** Every pattern of the library can be compared with the target. */
  predicate Scannable(target: FeatureSeq, lib: Library) {
    forall k :: 0 <= k < |lib| ==> Comparable(target, lib[k].pattern)
  }

  /** A square is never negative. */
  lemma SquareNonNegative(d: real)
    ensures d * d >= 0.0
  {
    if d < 0.0 {
      assert (-d) * (-d) == d * d;
    }
  }

  /** Sum of squared element-wise differences of two frames. */
  function FrameDist(x: Frame, y: Frame): (r: real)
    requires |x| == |y|
    ensures r >= 0.0
    decreases |x|
  {
    if |x| == 0 then 0.0
    else
      SquareNonNegative(x[0] - y[0]);
      (x[0] - y[0]) * (x[0] - y[0]) + FrameDist(x[1..], y[1..])
  }

  predicate SameShape(a: FeatureSeq, b: FeatureSeq) {
    |a| == |b| && forall j :: 0 <= j < |a| ==> |a[j]| == |b[j]|
  }

  /** `sum(np.power(a - b, 2).flat)`: the squared differences of two
      same-shape matrices, summed over every frame and coefficient. */
  function BlockDist(a: FeatureSeq, b: FeatureSeq): (r: real)
    requires SameShape(a, b)
    ensures r >= 0.0
    decreases |a|
  {
    if |a| == 0 then 0.0
    else FrameDist(a[0], b[0]) + BlockDist(a[1..], b[1..])
  }

  /** A frame is at distance zero from itself. */
  lemma {:induction false} FrameDistSelf(x: Frame)
    ensures FrameDist(x, x) == 0.0
    decreases |x|
  {
    if |x| > 0 {
      FrameDistSelf(x[1..]);
    }
  }

  /** A matrix is at distance zero from itself. */
  lemma {:induction false} BlockDistSelf(a: FeatureSeq)
    ensures BlockDist(a, a) == 0.0
    decreases |a|
  {
    if |a| > 0 {
      FrameDistSelf(a[0]);
      BlockDistSelf(a[1..]);
    }
  }

  /** The window distance at start offset `i`: the squared difference of
      `target[i:i + W]` and the pattern. It is never negative, and it is zero
      when the pattern occurs verbatim at `i`. */
  function WindowDist(target: FeatureSeq, pattern: FeatureSeq, i: nat): (r: real)
    requires Compatible(target, pattern)
    requires i + |pattern| <= |target|
    ensures r >= 0.0
    ensures target[i..i + |pattern|] == pattern ==> r == 0.0
  {
    var window := target[i..i + |pattern|];
    assert SameShape(window, pattern) by {
      forall j | 0 <= j < |window|
        ensures |window[j]| == |pattern[j]|
      {
        assert window[j] == target[i + j];
      }
    }
    BlockDistSelf(pattern);
    BlockDist(window, pattern)
  }
}

=== FILE: optional.dfy ===
/** An optional value: Python's `None` for thresholds, the result of
    `dict.get` on a missing key, and "no such position" in searches. */
module Optional {
  datatype Option<+T> = None | Some(value: T)
}

=== FILE: patterns_cmp.dfy ===
/** The revision with a threshold (`patterns_cmp.py`). The sequential
    branch of `ptns_cmp` is the exhaustive loop of `cmp_mfcc.py` and ignores
    the threshold; the parallel branch starts one `cmp_proc` worker per
    pattern, each scanning with step 1 and the threshold break, and drains
    the queue WITHOUT joining the workers first, so it stops as soon as it
    finds the queue empty, which may be before every worker has delivered.
    How many results it takes off is a parameter (`drained`). */
module PatternsCmp {
  import opened Optional
  import opened ExtReal
  import opened Features
  import opened Scan
  import opened DistanceMaps
  import opened Scanners
  import opened QueueMerge
  import CmpMfcc
  import CmpMfccMulticore

  /** `cmp_proc(id_item, target_ptn, queue, threshold)`: the item it puts
      on the queue. */
  method CmpProc(idItem: Golden, targetPtn: FeatureSeq, threshold: Option<real>) returns (res: Entry)
    requires Comparable(targetPtn, idItem.pattern)
    ensures res.name == idItem.name
    ensures res.value == Match(targetPtn, idItem.pattern, 1, threshold, false).value
  {
    var d := ScanWithThreshold(targetPtn, idItem.pattern, 1, threshold);
    res := Entry(idItem.name, d);
  }

  /** The queue drain of the parallel branch after `drained` results. */
  method Drain(goldenPtns: Library, targetPtn: FeatureSeq, threshold: Option<real>, order: seq<nat>, drained: nat)
    returns (idDiff: DistanceMap)
    requires Scannable(targetPtn, goldenPtns)
    requires IsCompletionOrder(order, |goldenPtns|) && drained <= |order|
    ensures idDiff == Drained(goldenPtns, IndependentValues(targetPtn, goldenPtns, 1, threshold), order, drained)
  {
    ghost var vals := IndependentValues(targetPtn, goldenPtns, 1, threshold);
    idDiff := [];
    var k := 0;
    while k < drained
      invariant 0 <= k <= drained
      invariant idDiff == Drained(goldenPtns, vals, order, k)
    {
      var res := CmpProc(goldenPtns[order[k]], targetPtn, threshold);
      DrainedNext(goldenPtns, vals, order, k);
      idDiff := Update(idDiff, res.name, res.value);
      k := k + 1;
    }
  }

  /** `ptns_cmp(golden_ptns, target_ptn, threshold, multiproc)` as written.
      Sequentially every name gets its exhaustive distance whatever the
      threshold; in parallel the keys are the names of the first `drained`
      workers to finish, each with its thresholded distance, and the names
      of the others are missing. */
  method PtnsCmp(goldenPtns: Library, targetPtn: FeatureSeq, threshold: Option<real>, multiproc: bool,
                 order: seq<nat>, drained: nat)
    returns (idDiff: DistanceMap)
    requires Scannable(targetPtn, goldenPtns) && UniqueNames(goldenPtns)
    requires IsCompletionOrder(order, |goldenPtns|) && drained <= |order|
    ensures !multiproc ==> Names(idDiff) == NamesOf(goldenPtns)
    ensures !multiproc ==> forall j :: 0 <= j < |goldenPtns| ==>
              Get(idDiff, goldenPtns[j].name) == Some(Exhaustive(targetPtn, goldenPtns[j].pattern))
    ensures multiproc ==> Names(idDiff) == OrderedNames(goldenPtns, order)[..drained]
    ensures multiproc ==> forall i :: 0 <= i < drained ==>
              Get(idDiff, goldenPtns[order[i]].name) == Some(Match(targetPtn, goldenPtns[order[i]].pattern, 1, threshold, false).value)
    ensures multiproc ==> forall i :: drained <= i < |order| ==> Get(idDiff, goldenPtns[order[i]].name) == None
  {
    if !multiproc {
      idDiff := CmpMfcc.CmpMfcc(goldenPtns, targetPtn);
    } else {
      idDiff := Drain(goldenPtns, targetPtn, threshold, order, drained);
      DrainedSpec(goldenPtns, IndependentValues(targetPtn, goldenPtns, 1, threshold), order, drained);
    }
  }

  /** The drain as written loses a pattern whenever it finds the queue
      empty before the last worker has delivered: the returned dict lacks
      that worker's name, and is empty when no worker has delivered yet. */
  lemma UnjoinedDrainLosesPattern(goldenPtns: Library, targetPtn: FeatureSeq, threshold: Option<real>,
                                  order: seq<nat>, drained: nat)
    requires Scannable(targetPtn, goldenPtns) && UniqueNames(goldenPtns)
    requires IsCompletionOrder(order, |goldenPtns|) && drained < |order|
    ensures exists j :: 0 <= j < |goldenPtns| &&
              Get(Drained(goldenPtns, IndependentValues(targetPtn, goldenPtns, 1, threshold), order, drained), goldenPtns[j].name) == None
  {
    EarlyDrainMissesPattern(goldenPtns, IndependentValues(targetPtn, goldenPtns, 1, threshold), order, drained);
  }

  /** The parallel branch with the workers joined before the drain, as
      `cmp_mfcc_multicore.py` does: every pattern name is a key, there are
      no others, and each holds its thresholded distance, which is the
      exhaustive one when the threshold is falsy and otherwise no smaller
      than it and below the threshold whenever the scan stopped early. */
  method PtnsCmpJoined(goldenPtns: Library, targetPtn: FeatureSeq, threshold: Option<real>, order: seq<nat>)
    returns (idDiff: DistanceMap)
    requires Scannable(targetPtn, goldenPtns) && UniqueNames(goldenPtns)
    requires IsCompletionOrder(order, |goldenPtns|)
    ensures forall nm :: nm in Names(idDiff) <==> nm in NamesOf(goldenPtns)
    ensures forall j :: 0 <= j < |goldenPtns| ==>
              Get(idDiff, goldenPtns[j].name) == Some(Match(targetPtn, goldenPtns[j].pattern, 1, threshold, false).value)
  {
    idDiff := Drain(goldenPtns, targetPtn, threshold, order, |order|);
    DrainedAll(goldenPtns, IndependentValues(targetPtn, goldenPtns, 1, threshold), order);
  }

  /** With a falsy threshold each worker's value is the exhaustive distance
      of `cmp_mfcc.py`; with a truthy one it is never smaller, and it is
      larger only if it is already below the threshold. */
  lemma WorkerValueVersusExhaustive(target: FeatureSeq, pattern: FeatureSeq, threshold: Option<real>)
    requires Comparable(target, pattern)
    ensures !Truthy(threshold) ==> Match(target, pattern, 1, threshold, false).value == Exhaustive(target, pattern)
    ensures Le(Exhaustive(target, pattern), Match(target, pattern, 1, threshold, false).value)
    ensures Match(target, pattern, 1, threshold, false).value != Exhaustive(target, pattern) ==>
              Truthy(threshold) && Below(Match(target, pattern, 1, threshold, false).value, threshold.value)
  {
    if Truthy(threshold) {
      MatchWithThreshold(target, pattern, 1, threshold);
    } else {
      MatchWithoutThreshold(target, pattern, 1, threshold);
    }
  }
}

=== FILE: queue_merge.dfy ===
/** The parent side of the multi-process revisions: each worker puts one
    `{name: distance}` on a shared queue and the parent merges what it
    takes off the queue with `dict.update`. Which worker finishes first is
    up to the scheduler, so the completion order is a parameter: any
    permutation of the pattern indices. How many results the parent takes
    off before it sees an empty queue is a parameter too. */
module QueueMerge {
  import opened Optional
  import opened ExtReal
  import opened Features
  import opened DistanceMaps

  /** Every pattern index occurs exactly once in the completion order. */
  predicate IsCompletionOrder(order: seq<nat>, n: nat) {
    && |order| == n
    && (forall i :: 0 <= i < |order| ==> order[i] < n)
    && (forall i, j :: 0 <= i < j < |order| ==> order[i] != order[j])
    && (forall k :: 0 <= k < n ==> k in order)
  }

  /** Each pattern index occurs at some position of the completion order. */
  lemma PositionOf(order: seq<nat>, n: nat, j: nat) returns (i: nat)
    requires IsCompletionOrder(order, n) && j < n
    ensures i < |order| && order[i] == j
  {
    assert j in order;
    var w :| 0 <= w < |order| && order[w] == j;
    i := w;
  }

  /** The names of the patterns in completion order. */
  function OrderedNames(lib: Library, order: seq<nat>): (names: seq<string>)
    requires forall i :: 0 <= i < |order| ==> order[i] < |lib|
    ensures |names| == |order|
    ensures forall i :: 0 <= i < |order| ==> names[i] == lib[order[i]].name
  {
    seq(|order|, i requires 0 <= i < |order| => lib[order[i]].name)
  }

  /** Per-pattern values rearranged into completion order. */
  function Permute(vals: seq<Dist>, order: seq<nat>): (r: seq<Dist>)
    requires forall i :: 0 <= i < |order| ==> order[i] < |vals|
    ensures |r| == |order|
    ensures forall i :: 0 <= i < |order| ==> r[i] == vals[order[i]]
  {
    seq(|order|, i requires 0 <= i < |order| => vals[order[i]])
  }

  /** Distinct patterns taken in any order have distinct names. */
  lemma OrderedNamesDistinct(lib: Library, order: seq<nat>)
    requires UniqueNames(lib)
    requires forall i :: 0 <= i < |order| ==> order[i] < |lib|
    requires forall i, j :: 0 <= i < j < |order| ==> order[i] != order[j]
    ensures DistinctNames(OrderedNames(lib, order))
  {
    var names := OrderedNames(lib, order);
    forall i, j | 0 <= i < j < |names|
      ensures names[i] != names[j]
    {
      if order[i] < order[j] {
        assert lib[order[i]].name != lib[order[j]].name;
      } else {
        assert lib[order[j]].name != lib[order[i]].name;
      }
    }
  }

  /** Merging every result into an existing dict, in any completion
      order, leaves each pattern name holding its own value ... */
  lemma MergeIntoValues(before: DistanceMap, lib: Library, vals: seq<Dist>, order: seq<nat>)
    requires UniqueNames(lib)
    requires IsCompletionOrder(order, |lib|) && |vals| == |lib|
    ensures forall j :: 0 <= j < |lib| ==>
              Get(RecordAll(before, OrderedNames(lib, order), Permute(vals, order)), lib[j].name) == Some(vals[j])
  {
    var names := OrderedNames(lib, order);
    OrderedNamesDistinct(lib, order);
    RecordAllSpec(before, names, Permute(vals, order));
    forall j | 0 <= j < |lib|
      ensures Get(RecordAll(before, names, Permute(vals, order)), lib[j].name) == Some(vals[j])
    {
      var i := PositionOf(order, |lib|, j);
      assert names[i] == lib[j].name;
    }
  }

  /** ... and every other key holding what it held before. */
  lemma MergeIntoOthers(before: DistanceMap, lib: Library, vals: seq<Dist>, order: seq<nat>)
    requires UniqueNames(lib)
    requires IsCompletionOrder(order, |lib|) && |vals| == |lib|
    ensures forall nm :: nm !in NamesOf(lib) ==>
              Get(RecordAll(before, OrderedNames(lib, order), Permute(vals, order)), nm) == Get(before, nm)
  {
    var names := OrderedNames(lib, order);
    forall nm | nm in names
      ensures nm in NamesOf(lib)
    {
      var i :| 0 <= i < |names| && names[i] == nm;
      assert NamesOf(lib)[order[i]] == nm;
    }
    OrderedNamesDistinct(lib, order);
    RecordAllSpec(before, names, Permute(vals, order));
  }

  /** The result dict once the first `k` queued results, pattern `j`
      carrying `vals[j]`, have been merged into an empty dict. */
  function Drained(lib: Library, vals: seq<Dist>, order: seq<nat>, k: nat): DistanceMap
    requires IsCompletionOrder(order, |lib|) && |vals| == |lib| && k <= |order|
  {
    RecordAll([], OrderedNames(lib, order)[..k], Permute(vals, order)[..k])
  }

  /** Taking one more result off the queue merges it into the dict. */
  lemma DrainedNext(lib: Library, vals: seq<Dist>, order: seq<nat>, k: nat)
    requires IsCompletionOrder(order, |lib|) && |vals| == |lib| && k < |order|
    ensures Drained(lib, vals, order, k + 1) == Update(Drained(lib, vals, order, k), lib[order[k]].name, vals[order[k]])
  {
    RecordAllSnoc([], OrderedNames(lib, order), Permute(vals, order), k);
  }

  /** After `k` results: the keys are the names of the first `k` patterns to
      finish, in that order, each holding its value, and the pattern of
      every later result is missing. */
  lemma DrainedSpec(lib: Library, vals: seq<Dist>, order: seq<nat>, k: nat)
    requires UniqueNames(lib)
    requires IsCompletionOrder(order, |lib|) && |vals| == |lib| && k <= |order|
    ensures var r := Drained(lib, vals, order, k);
      && Names(r) == OrderedNames(lib, order)[..k]
      && (forall i :: 0 <= i < k ==> Get(r, lib[order[i]].name) == Some(vals[order[i]]))
      && (forall i :: k <= i < |order| ==> Get(r, lib[order[i]].name) == None)
  {
    var names := OrderedNames(lib, order);
    var values := Permute(vals, order);
    OrderedNamesDistinct(lib, order);
    assert DistinctNames(names[..k]);
    RecordAllSpec([], names[..k], values[..k]);
    var r := Drained(lib, vals, order, k);
    forall i | 0 <= i < k
      ensures Get(r, lib[order[i]].name) == Some(vals[order[i]])
    {
      assert names[..k][i] == lib[order[i]].name;
    }
    forall i | k <= i < |order|
      ensures Get(r, lib[order[i]].name) == None
    {
      assert names[i] !in names[..k];
    }
  }

  /** Once every result is merged, every pattern name holds its value ... */
  lemma DrainedAllValues(lib: Library, vals: seq<Dist>, order: seq<nat>)
    requires UniqueNames(lib)
    requires IsCompletionOrder(order, |lib|) && |vals| == |lib|
    ensures forall j :: 0 <= j < |lib| ==> Get(Drained(lib, vals, order, |order|), lib[j].name) == Some(vals[j])
  {
    DrainedSpec(lib, vals, order, |order|);
    forall j | 0 <= j < |lib|
      ensures Get(Drained(lib, vals, order, |order|), lib[j].name) == Some(vals[j])
    {
      var i := PositionOf(order, |lib|, j);
    }
  }

  /** ... and the keys are exactly the pattern names. */
  lemma DrainedAllNames(lib: Library, vals: seq<Dist>, order: seq<nat>)
    requires UniqueNames(lib)
    requires IsCompletionOrder(order, |lib|) && |vals| == |lib|
    ensures forall nm :: nm in Names(Drained(lib, vals, order, |order|)) <==> nm in NamesOf(lib)
  {
    var names := OrderedNames(lib, order);
    DrainedSpec(lib, vals, order, |order|);
    assert names[..|order|] == names;
    forall nm | nm in NamesOf(lib)
      ensures nm in names
    {
      var j :| 0 <= j < |lib| && NamesOf(lib)[j] == nm;
      var i := PositionOf(order, |lib|, j);
      assert names[i] == nm;
    }
  }

  /** Once every result is merged, every pattern name is a key holding its
      value, and there are no other keys. */
  lemma DrainedAll(lib: Library, vals: seq<Dist>, order: seq<nat>)
    requires UniqueNames(lib)
    requires IsCompletionOrder(order, |lib|) && |vals| == |lib|
    ensures var r := Drained(lib, vals, order, |order|);
      && (forall j :: 0 <= j < |lib| ==> Get(r, lib[j].name) == Some(vals[j]))
      && (forall nm :: nm in Names(r) <==> nm in NamesOf(lib))
  {
    DrainedAllValues(lib, vals, order);
    DrainedAllNames(lib, vals, order);
  }

  /** Stopping before every worker has delivered loses a pattern: some
      pattern name is not a key of the result. */
  lemma EarlyDrainMissesPattern(lib: Library, vals: seq<Dist>, order: seq<nat>, k: nat)
    requires UniqueNames(lib)
    requires IsCompletionOrder(order, |lib|) && |vals| == |lib| && k < |order|
    ensures exists j :: 0 <= j < |lib| && Get(Drained(lib, vals, order, k), lib[j].name) == None
  {
    DrainedSpec(lib, vals, order, k);
    assert Get(Drained(lib, vals, order, k), lib[order[k]].name) == None;
  }
}

=== FILE: riff.dfy ===
/** The header patch applied to FFmpeg's WAV output before it is parsed.
    Writing to a pipe, FFmpeg leaves the RIFF chunk size (bytes 4 to 7 of
    the file, a 32-bit little-endian count of the bytes after the first
    eight) as 0xFFFFFFFF; the patch splits `len - 8` into four bytes with
    `divmod(q, 256)` and splices them over bytes 4 to 7. */
module Riff {
  import opened Arith

  type byte = x: int | 0 <= x < 256

  /** The chunk size excludes the chunk id and the size field itself. */
  const HeaderSkip := 8
  /** The size field starts after the four-byte chunk id "RIFF". */
  const FieldStart := 4
  /** The size field is four bytes wide. */
  const FieldWidth := 4

  function Pow256(k: nat): (r: nat)
    ensures r >= 1
  {
    if k == 0 then 1 else 256 * Pow256(k - 1)
  }

  /** The unsigned little-endian number the bytes spell. */
  function DecodeLE(b: seq<byte>): (n: nat)
    ensures n < Pow256(|b|)
  {
    if |b| == 0 then 0
    else
      var rest := DecodeLE(b[1..]);
      MulMonotone(rest, Pow256(|b| - 1) - 1, 256);
      b[0] + 256 * rest
  }

  /** `k` rounds of `q, r = divmod(q, 256)`, keeping each `r`. Python's
      `divmod` floors, which for the divisor 256 is Dafny's `/` and `%`
      also for a negative `n`. */
  function EncodeLE(n: int, k: nat): (b: seq<byte>)
    ensures |b| == k
    decreases k
  {
    if k == 0 then [] else [n % 256] + EncodeLE(n / 256, k - 1)
  }

  /** Decoding `k` encoded bytes gives `n` modulo `256^k`: the encoding is
      the two's-complement truncation of `n` to `k` bytes. */
  lemma {:induction false} DecodeEncode(n: int, k: nat)
    ensures DecodeLE(EncodeLE(n, k)) == n % Pow256(k)
    decreases k
  {
    if k > 0 {
      var p := Pow256(k - 1);
      var q, r := n / 256, n % 256;
      var b := EncodeLE(n, k);
      assert DecodeLE(b) == r + 256 * (q % p) by {
        assert b[1..] == EncodeLE(q, k - 1);
        DecodeEncode(q, k - 1);
      }
      ModOfShift(n, q, r, p);
    }
  }

  /** Dropping the low byte `r` of `n` and reducing the rest modulo `p`
      is reducing `n` modulo `256 * p`. */
  lemma ModOfShift(n: int, q: int, r: int, p: int)
    requires p >= 1 && 0 <= r < 256 && n == 256 * q + r
    ensures n % (256 * p) == r + 256 * (q % p)
  {
    var d, m := q / p, q % p;
    RegroupShift(n, q, r, p, d, m);
    MulMonotone(m, p - 1, 256);
    DivModUnique(n, 256 * p, d, r + 256 * m);
  }

  /** The regrouping behind `ModOfShift`, with every term named. */
  lemma RegroupShift(n: int, q: int, r: int, p: int, d: int, m: int)
    requires n == 256 * q + r && q == d * p + m
    ensures n == d * (256 * p) + (r + 256 * m)
  {
    MulAddDistrib(d * p, m, 256);
    MulRegroup(d, p, 256);
  }

  /** Encoding the number that `b` spells, to `|b|` bytes, gives `b` back. */
  lemma {:induction false} EncodeDecode(b: seq<byte>)
    ensures EncodeLE(DecodeLE(b), |b|) == b
  {
    if |b| > 0 {
      var rest := DecodeLE(b[1..]);
      DivModUnique(DecodeLE(b), 256, rest, b[0]);
      EncodeDecode(b[1..]);
    }
  }

  /** The encoding only sees `n` modulo `256^k`. */
  lemma EncodeMod(n: int, k: nat)
    ensures EncodeLE(n % Pow256(k), k) == EncodeLE(n, k)
  {
    DecodeEncode(n, k);
    EncodeDecode(EncodeLE(n, k));
  }

  /** The loop that fills `binarray`: four bytes that spell the chunk size
      modulo 2^32. */
  method ChunkSizeBytes(size: int) returns (binarray: seq<byte>)
    ensures |binarray| == FieldWidth
    ensures DecodeLE(binarray) == size % Pow256(FieldWidth)
  {
    var quotient := size;
    binarray := [];
    for i := 0 to FieldWidth
      invariant |binarray| == i
      invariant size == quotient * Pow256(i) + DecodeLE(binarray)
    {
      var q, r := quotient / 256, quotient % 256;
      DivmodStep(size, quotient, binarray);
      quotient := q;
      binarray := binarray + [r];
    }
    DivModUnique(size, Pow256(FieldWidth), quotient, DecodeLE(binarray));
  }

  /** One round of `divmod` moves the low byte of the quotient into the
      bytes collected so far. */
  lemma DivmodStep(size: int, quotient: int, b: seq<byte>)
    requires size == quotient * Pow256(|b|) + DecodeLE(b)
    ensures size == (quotient / 256) * Pow256(|b| + 1) + DecodeLE(b + [quotient % 256])
  {
    var q, r, p := quotient / 256, quotient % 256, Pow256(|b|);
    DecodeSnoc(b, r);
    assert Pow256(|b| + 1) == 256 * p;
    ShiftByte(size, quotient, q, r, p, DecodeLE(b));
  }

  /** The arithmetic of one `divmod` round, with every term named. */
  lemma ShiftByte(size: int, quotient: int, q: int, r: int, p: int, d: int)
    requires size == quotient * p + d
    requires quotient == 256 * q + r
    ensures size == q * (256 * p) + (d + r * p)
  {
    MulAddDistrib(256 * q, r, p);
    MulRegroup(256, q, p);
  }

  /** Appending a byte adds it at the next power of 256. */
  lemma {:induction false} DecodeSnoc(b: seq<byte>, x: byte)
    ensures DecodeLE(b + [x]) == DecodeLE(b) + x * Pow256(|b|)
    decreases |b|
  {
    if |b| > 0 {
      assert (b + [x])[1..] == b[1..] + [x];
      DecodeSnoc(b[1..], x);
      assert 256 * (x * Pow256(|b| - 1)) == x * Pow256(|b|);
    } else {
      assert DecodeLE([x]) == x + 256 * DecodeLE([]);
    }
  }

  /** The patched stream: the bytes before the size field, the four bytes
      of the chunk size, then the bytes after the field. Slice bounds are
      clamped to the length, as Python does, for a stream shorter than
      eight bytes. */
  function Patch(s: seq<byte>): (riff: seq<byte>)
    ensures var lo, hi := Clamp(FieldStart, |s|), Clamp(HeaderSkip, |s|);
      && |riff| == lo + FieldWidth + (|s| - hi)
      && riff[..lo] == s[..lo]
      && riff[lo + FieldWidth..] == s[hi..]
      && DecodeLE(riff[lo..lo + FieldWidth]) == (|s| - HeaderSkip) % Pow256(FieldWidth)
  {
    var lo, hi := Clamp(FieldStart, |s|), Clamp(HeaderSkip, |s|);
    var bin := EncodeLE(|s| - HeaderSkip, FieldWidth);
    DecodeEncode(|s| - HeaderSkip, FieldWidth);
    assert (s[..lo] + bin + s[hi..])[lo..lo + FieldWidth] == bin;
    s[..lo] + bin + s[hi..]
  }

  /** A slice bound past the end stops at the end. */
  function Clamp(i: nat, len: nat): (r: nat)
    ensures r <= len && r <= i && (r == i || r == len)
  {
    if i <= len then i else len
  }

  /** The method form of the patch computes the same bytes. */
  method PatchRiff(stdout: seq<byte>) returns (riff: seq<byte>)
    ensures riff == Patch(stdout)
  {
    var riffChunkSize := |stdout| - HeaderSkip;
    var binarray := ChunkSizeBytes(riffChunkSize);
    EncodeDecode(binarray);
    EncodeMod(riffChunkSize, FieldWidth);
    riff := stdout[..Clamp(FieldStart, |stdout|)] + binarray + stdout[Clamp(HeaderSkip, |stdout|)..];
  }

  /** For a whole header the patch keeps the length and every byte outside
      the size field, and the field then holds the chunk size. */
  lemma PatchWholeHeader(s: seq<byte>)
    requires |s| >= HeaderSkip
    ensures var riff := Patch(s);
      && |riff| == |s|
      && (forall i :: 0 <= i < |s| && !(FieldStart <= i < HeaderSkip) ==> riff[i] == s[i])
      && DecodeLE(riff[FieldStart..HeaderSkip]) == (|s| - HeaderSkip) % Pow256(FieldWidth)
  {
    var riff := Patch(s);
    forall i | 0 <= i < |s| && !(FieldStart <= i < HeaderSkip)
      ensures riff[i] == s[i]
    {
      if i < FieldStart {
        assert riff[..FieldStart][i] == s[..FieldStart][i];
      } else {
        assert riff[HeaderSkip..][i - HeaderSkip] == s[HeaderSkip..][i - HeaderSkip];
      }
    }
  }

  /** A header whose size field is already right is left as it is, and
      only such a header is. */
  lemma PatchFixedPointIff(s: seq<byte>)
    requires |s| >= HeaderSkip
    ensures Patch(s) == s <==> DecodeLE(s[FieldStart..HeaderSkip]) == (|s| - HeaderSkip) % Pow256(FieldWidth)
  {
    var field := s[FieldStart..HeaderSkip];
    if DecodeLE(field) == (|s| - HeaderSkip) % Pow256(FieldWidth) {
      EncodeDecode(field);
      EncodeMod(|s| - HeaderSkip, FieldWidth);
      assert s == s[..FieldStart] + field + s[HeaderSkip..];
    }
  }

  /** Patching twice is patching once. */
  lemma PatchIdempotent(s: seq<byte>)
    requires |s| >= HeaderSkip
    ensures Patch(Patch(s)) == Patch(s)
  {
    PatchWholeHeader(s);
    PatchFixedPointIff(Patch(s));
  }

  /** FFmpeg's placeholder 0xFFFFFFFF is replaced by the true chunk size
      whenever the stream is shorter than 4 GiB plus the header. */
  lemma PatchReplacesPlaceholder(s: seq<byte>)
    requires |s| >= HeaderSkip
    requires s[FieldStart..HeaderSkip] == [255, 255, 255, 255]
    requires |s| - HeaderSkip < Pow256(FieldWidth) - 1
    ensures DecodeLE(s[FieldStart..HeaderSkip]) == Pow256(FieldWidth) - 1
    ensures DecodeLE(Patch(s)[FieldStart..HeaderSkip]) == |s| - HeaderSkip
    ensures Patch(s) != s
  {
    var f := s[FieldStart..HeaderSkip];
    assert DecodeLE(f[3..]) == 255 by { assert f[3..][1..] == []; }
    assert f[2..][1..] == f[3..] && f[1..][1..] == f[2..];
    assert DecodeLE(f[2..]) == 65535;
    assert DecodeLE(f[1..]) == 16777215;
    assert DecodeLE(f) == 4294967295;
    PatchFixedPointIff(s);
  }
}

=== FILE: scan.dfy ===
/** The single-pattern sliding-window matcher, stated once for every
    revision of `cmp_proc`.

    A scan visits the start offsets `0, step, 2*step, ...` up to `T - W`
    (`range(0, T - W + 1, step)`), keeps the running minimum of the window
    distances it has seen, and reports that minimum divided by `W`. The
    c-th visited offset is `c * step`; `PrefixMin(k)` is the running minimum
    after `k` offsets, and every revision's loop is proved to compute one of
    the values below. */
module Scan {
  import opened Optional
  import opened ExtReal
  import opened Features
  import opened Arith

  // ---------------------------------------------------------------------
  // Offsets

  /** Length of `range(0, t - w + 1, step)` when `t >= w`; no offset at all
      when the target is shorter than the pattern. A negative step gives an
      empty range as well (a zero step raises and is excluded by callers). */
  function NumOffsets(t: nat, w: nat, step: int): nat {
    if step <= 0 || t < w then 0 else (t - w) / step + 1
  }

  /** `range(0, T - W + 1, step)` raises on a zero step, but it is only
      reached when the target is at least as long as the pattern: a
      shorter target gives `inf` for any step. */
  predicate StepAccepted(target: FeatureSeq, pattern: FeatureSeq, step: int) {
    step != 0 || |target| < |pattern|
  }

  /** No pattern of the library makes `range` raise. */
  predicate StepsAccepted(target: FeatureSeq, lib: Library, step: int) {
    forall j :: 0 <= j < |lib| ==> StepAccepted(target, lib[j].pattern, step)
  }

  /** Every enumerated offset leaves room for a whole window. */
  lemma OffsetInRange(t: nat, w: nat, step: int, c: nat)
    requires c < NumOffsets(t, w, step)
    ensures step >= 1 && w <= t
    ensures c * step + w <= t
  {
    var q := (t - w) / step;
    DivTimesDivisor(t - w, step);
    MulMonotone(c, q, step);
  }

  /** The first offset past the enumerated ones leaves no room for a
      window: `range` stops there. */
  lemma OffsetPastRange(t: nat, w: nat, step: int)
    requires step >= 1 && w <= t
    ensures NumOffsets(t, w, step) * step + w > t
  {
    var q := (t - w) / step;
    DivTimesDivisor(t - w, step);
    assert (q + 1) * step == q * step + step;
  }

  /** Moving to the next offset adds one step, and the next offset still
      fits when it is enumerated. */
  lemma NextOffset(t: nat, w: nat, step: int, c: nat)
    requires step >= 1
    ensures (c + 1) * step == c * step + step
    ensures c + 1 < NumOffsets(t, w, step) ==> (c + 1) * step + w <= t
  {
    if c + 1 < NumOffsets(t, w, step) {
      OffsetInRange(t, w, step, c + 1);
    }
  }

  /** Every offset that is a multiple of the step and leaves room for a
      whole window is enumerated: it is the `i / step`-th offset. */
  lemma OffsetsCovered(t: nat, w: nat, step: int, i: nat)
    requires step >= 1
    requires i + w <= t
    requires i % step == 0
    ensures i / step < NumOffsets(t, w, step)
    ensures (i / step) * step == i
  {
    DivMonotoneNat(i, t - w, step);
    assert i == (i / step) * step;
  }

  // ---------------------------------------------------------------------
  // Running minimum

  /** The window distance at the c-th enumerated offset. */
  function OffsetDist(target: FeatureSeq, pattern: FeatureSeq, step: int, c: nat): (r: real)
    requires Comparable(target, pattern)
    requires c < NumOffsets(|target|, |pattern|, step)
    ensures r >= 0.0
  {
    OffsetInRange(|target|, |pattern|, step, c);
    WindowDist(target, pattern, c * step)
  }

  /** The start offset of the c-th enumerated window: a multiple of the
      step at which a whole window fits. */
  lemma OffsetOf(target: FeatureSeq, pattern: FeatureSeq, step: int, c: nat) returns (i: nat)
    requires Comparable(target, pattern)
    requires c < NumOffsets(|target|, |pattern|, step)
    ensures step >= 1 && i % step == 0 && i / step == c
    ensures i + |pattern| <= |target|
    ensures OffsetDist(target, pattern, step, c) == WindowDist(target, pattern, i)
  {
    OffsetInRange(|target|, |pattern|, step, c);
    MulDivExact(c, step);
    i := c * step;
  }

  /** The running minimum `diff` after the first `k` offsets, folded as the
      loop body `diff = min(window_distance, diff)` does, from `math.inf`. */
  function PrefixMin(target: FeatureSeq, pattern: FeatureSeq, step: int, k: nat): Dist
    requires Comparable(target, pattern)
    requires k <= NumOffsets(|target|, |pattern|, step)
    decreases k
  {
    if k == 0 then Inf
    else Min(Fin(OffsetDist(target, pattern, step, k - 1)), PrefixMin(target, pattern, step, k - 1))
  }

  /** The running minimum after `k > 0` offsets is one of the distances seen
      and is no larger than any of them; before any offset it is infinite. */
  lemma {:induction false} PrefixMinIsLeast(target: FeatureSeq, pattern: FeatureSeq, step: int, k: nat)
    requires Comparable(target, pattern)
    requires k <= NumOffsets(|target|, |pattern|, step)
    ensures PrefixMin(target, pattern, step, k).Inf? <==> k == 0
    ensures k > 0 ==> exists c :: 0 <= c < k && PrefixMin(target, pattern, step, k).v == OffsetDist(target, pattern, step, c)
    ensures forall c :: 0 <= c < k ==> Le(PrefixMin(target, pattern, step, k), Fin(OffsetDist(target, pattern, step, c)))
    decreases k
  {
    if k > 0 {
      PrefixMinIsLeast(target, pattern, step, k - 1);
      var m := PrefixMin(target, pattern, step, k);
      if m == Fin(OffsetDist(target, pattern, step, k - 1)) {
        assert m.v == OffsetDist(target, pattern, step, k - 1);
      } else {
        var c :| 0 <= c < k - 1 && PrefixMin(target, pattern, step, k - 1).v == OffsetDist(target, pattern, step, c);
        assert m.v == OffsetDist(target, pattern, step, c);
      }
    }
  }

  /** The running minimum never grows as more offsets are visited. */
  lemma {:induction false} PrefixMinAntitone(target: FeatureSeq, pattern: FeatureSeq, step: int, j: nat, k: nat)
    requires Comparable(target, pattern)
    requires j <= k <= NumOffsets(|target|, |pattern|, step)
    ensures Le(PrefixMin(target, pattern, step, k), PrefixMin(target, pattern, step, j))
    decreases k - j
  {
    if j < k {
      PrefixMinAntitone(target, pattern, step, j, k - 1);
      LeTrans(PrefixMin(target, pattern, step, k), PrefixMin(target, pattern, step, k - 1), PrefixMin(target, pattern, step, j));
    }
  }

  // ---------------------------------------------------------------------
  // Full scans

  /** The value a scan that never stops early reports: the running minimum
      over every enumerated offset, divided by the window length. */
  function Stepped(target: FeatureSeq, pattern: FeatureSeq, step: int): Dist
    requires Comparable(target, pattern)
  {
    Norm(PrefixMin(target, pattern, step, NumOffsets(|target|, |pattern|, step)), |pattern|)
  }

  /** The exhaustive scan of the older revisions: every offset, step 1. */
  function Exhaustive(target: FeatureSeq, pattern: FeatureSeq): Dist
    requires Comparable(target, pattern)
  {
    Stepped(target, pattern, 1)
  }

  /** The stepped scan is infinite exactly when no window fits, and
      otherwise reports the normalised window distance at some offset
      `i <= T - W` with `i % step == 0`. */
  lemma SteppedAttained(target: FeatureSeq, pattern: FeatureSeq, step: int)
    requires Comparable(target, pattern)
    requires step >= 1
    ensures Stepped(target, pattern, step).Inf? <==> |target| < |pattern|
    ensures |target| >= |pattern| ==>
              exists i :: 0 <= i <= |target| - |pattern| && i % step == 0 &&
                Stepped(target, pattern, step) == Norm(Fin(WindowDist(target, pattern, i)), |pattern|)
  {
    var n := NumOffsets(|target|, |pattern|, step);
    var m := PrefixMin(target, pattern, step, n);
    PrefixMinIsLeast(target, pattern, step, n);
    if |target| >= |pattern| {
      var c :| 0 <= c < n && m.v == OffsetDist(target, pattern, step, c);
      var i := OffsetOf(target, pattern, step, c);
      assert m == Fin(WindowDist(target, pattern, i));
    }
  }

  /** The stepped scan is no larger than the normalised window distance at
      any offset `i <= T - W` with `i % step == 0`. */
  lemma SteppedIsLeast(target: FeatureSeq, pattern: FeatureSeq, step: int, i: nat)
    requires Comparable(target, pattern)
    requires step >= 1 && i % step == 0 && i + |pattern| <= |target|
    ensures Le(Stepped(target, pattern, step), Norm(Fin(WindowDist(target, pattern, i)), |pattern|))
  {
    var n := NumOffsets(|target|, |pattern|, step);
    var m := PrefixMin(target, pattern, step, n);
    PrefixMinIsLeast(target, pattern, step, n);
    OffsetsCovered(|target|, |pattern|, step, i);
    assert OffsetDist(target, pattern, step, i / step) == WindowDist(target, pattern, i);
    NormMonotone(m, Fin(WindowDist(target, pattern, i)), |pattern|);
  }

  /** The exhaustive scan is the true minimum of the normalised window
      distance over every start offset `0 <= i <= T - W`. */
  lemma ExhaustiveIsTrueMinimum(target: FeatureSeq, pattern: FeatureSeq)
    requires Comparable(target, pattern)
    ensures Exhaustive(target, pattern).Inf? <==> |target| < |pattern|
    ensures |target| >= |pattern| ==>
              exists i :: 0 <= i <= |target| - |pattern| &&
                Exhaustive(target, pattern) == Norm(Fin(WindowDist(target, pattern, i)), |pattern|)
    ensures forall i :: 0 <= i <= |target| - |pattern| ==>
              Le(Exhaustive(target, pattern), Norm(Fin(WindowDist(target, pattern, i)), |pattern|))
  {
    SteppedAttained(target, pattern, 1);
    forall i | 0 <= i <= |target| - |pattern|
      ensures Le(Exhaustive(target, pattern), Norm(Fin(WindowDist(target, pattern, i)), |pattern|))
    {
      SteppedIsLeast(target, pattern, 1, i);
    }
  }

  /** A coarser step can only miss the best alignment, never find a better
      one: the step-k result is at least the exhaustive result. */
  lemma SteppedNoBetterThanExhaustive(target: FeatureSeq, pattern: FeatureSeq, step: int)
    requires Comparable(target, pattern)
    ensures Le(Exhaustive(target, pattern), Stepped(target, pattern, step))
  {
    var n := NumOffsets(|target|, |pattern|, step);
    if n > 0 {
      SteppedAttained(target, pattern, step);
      var i :| 0 <= i <= |target| - |pattern| && i % step == 0 &&
        Stepped(target, pattern, step) == Norm(Fin(WindowDist(target, pattern, i)), |pattern|);
      SteppedIsLeast(target, pattern, 1, i);
    } else {
      assert PrefixMin(target, pattern, step, n) == Inf;
    }
  }

  /** Every finite result of a full scan is a sum of squares over a positive
      length, hence non-negative. */
  lemma SteppedNonNegative(target: FeatureSeq, pattern: FeatureSeq, step: int)
    requires Comparable(target, pattern)
    ensures Stepped(target, pattern, step).Fin? ==> Stepped(target, pattern, step).v >= 0.0
  {
    NormPrefixNonNegative(target, pattern, step, NumOffsets(|target|, |pattern|, step));
  }

  /** A pattern that occurs verbatim in the target at an offset the scan
      visits makes the full scan report exactly zero. */
  lemma SteppedVerbatimIsZero(target: FeatureSeq, pattern: FeatureSeq, step: int, i: nat)
    requires Comparable(target, pattern)
    requires step >= 1 && i % step == 0
    requires i + |pattern| <= |target| && target[i..i + |pattern|] == pattern
    ensures Stepped(target, pattern, step) == Fin(0.0)
  {
    SteppedIsLeast(target, pattern, step, i);
    SteppedNonNegative(target, pattern, step);
    assert WindowDist(target, pattern, i) == 0.0;
  }

  // ---------------------------------------------------------------------
  // Threshold and stop flag

  /** Python truthiness of the `threshold` argument: `None` and `0` are
      false, so either one disables the early stop. */
  predicate Truthy(threshold: Option<real>) {
    threshold.Some? && threshold.value != 0.0
  }

  /** The threshold test `diff / window < threshold` after the first `k`
      offsets. */
  predicate Hit(target: FeatureSeq, pattern: FeatureSeq, step: int, t: real, k: nat)
    requires Comparable(target, pattern)
    requires k <= NumOffsets(|target|, |pattern|, step)
  {
    Below(Norm(PrefixMin(target, pattern, step, k), |pattern|), t)
  }

  /** The first `j >= k` at which the threshold test succeeds, if any. */
  function FirstHit(target: FeatureSeq, pattern: FeatureSeq, step: int, t: real, k: nat): (r: Option<nat>)
    requires Comparable(target, pattern)
    requires k <= NumOffsets(|target|, |pattern|, step) + 1
    ensures r.Some? ==> k <= r.value <= NumOffsets(|target|, |pattern|, step)
    ensures r.Some? ==> Hit(target, pattern, step, t, r.value)
    ensures r.Some? ==> forall j :: k <= j < r.value ==> !Hit(target, pattern, step, t, j)
    ensures r.None? ==> forall j :: k <= j <= NumOffsets(|target|, |pattern|, step) ==> !Hit(target, pattern, step, t, j)
    decreases NumOffsets(|target|, |pattern|, step) + 1 - k
  {
    if k > NumOffsets(|target|, |pattern|, step) then None
    else if Hit(target, pattern, step, t, k) then Some(k)
    else FirstHit(target, pattern, step, t, k + 1)
  }

  /** What one call of the matcher hands back: the normalised distance and
      the stop flag as the call leaves it. */
  datatype MatchResult = MatchResult(value: Dist, stopFlag: bool)

  /** The distances of a run of matches. */
  function ValuesOf(results: seq<MatchResult>): (vs: seq<Dist>)
    ensures |vs| == |results|
    ensures forall i :: 0 <= i < |results| ==> vs[i] == results[i].value
  {
    seq(|results|, i requires 0 <= i < |results| => results[i].value)
  }

  /** One call of `cmp_proc` on a pattern, with the shared stop flag as it
      is when the call starts. An empty range leaves `diff` infinite; a set
      flag, seen before the first window, makes the result infinite; a
      truthy threshold stops at the first running minimum below it and
      sets the flag. */
  function Match(target: FeatureSeq, pattern: FeatureSeq, step: int, threshold: Option<real>, stopFlag: bool): (r: MatchResult)
    requires Comparable(target, pattern)
    requires StepAccepted(target, pattern, step)
    ensures stopFlag ==> r.stopFlag
    ensures r.stopFlag && !stopFlag ==> Truthy(threshold) && Below(r.value, threshold.value)
  {
    var n := NumOffsets(|target|, |pattern|, step);
    if n == 0 then MatchResult(Inf, stopFlag)
    else if stopFlag then MatchResult(Inf, true)
    else if Truthy(threshold) then
      match FirstHit(target, pattern, step, threshold.value, 1)
      case Some(k) => MatchResult(Norm(PrefixMin(target, pattern, step, k), |pattern|), true)
      case None => MatchResult(Stepped(target, pattern, step), false)
    else MatchResult(Stepped(target, pattern, step), false)
  }

  /** The match a scan ends with when the running minimum first drops
      below a truthy threshold after `k` windows. */
  lemma MatchStopsAt(target: FeatureSeq, pattern: FeatureSeq, step: int, threshold: Option<real>, k: nat)
    requires Comparable(target, pattern) && StepAccepted(target, pattern, step)
    requires Truthy(threshold)
    requires 1 <= k <= NumOffsets(|target|, |pattern|, step)
    requires Hit(target, pattern, step, threshold.value, k)
    requires forall j :: 1 <= j < k ==> !Hit(target, pattern, step, threshold.value, j)
    ensures Match(target, pattern, step, threshold, false) ==
              MatchResult(Norm(PrefixMin(target, pattern, step, k), |pattern|), true)
  {
    var h := FirstHit(target, pattern, step, threshold.value, 1);
    assert h == Some(k);
  }

  /** The match a scan ends with when it runs to the end of the range
      without the threshold test succeeding. */
  lemma MatchRunsToEnd(target: FeatureSeq, pattern: FeatureSeq, step: int, threshold: Option<real>)
    requires Comparable(target, pattern) && StepAccepted(target, pattern, step)
    requires Truthy(threshold) ==> forall j :: 1 <= j <= NumOffsets(|target|, |pattern|, step) ==> !Hit(target, pattern, step, threshold.value, j)
    ensures Match(target, pattern, step, threshold, false) == MatchResult(Stepped(target, pattern, step), false)
  {
    if NumOffsets(|target|, |pattern|, step) == 0 {
      assert PrefixMin(target, pattern, step, 0) == Inf;
    } else if Truthy(threshold) {
      var h := FirstHit(target, pattern, step, threshold.value, 1);
      assert h.None?;
    }
  }

  // ---------------------------------------------------------------------
  // The scan loop, one step at a time

  /** The state of a scan loop over a target at least as long as the
      pattern: `c` windows seen, the next offset `i`, the running minimum
      `diff`, and the threshold test has not yet succeeded. */
  predicate Scanning(target: FeatureSeq, pattern: FeatureSeq, step: int, threshold: Option<real>, c: nat, i: int, diff: Dist)
    requires Comparable(target, pattern)
  {
    var n := NumOffsets(|target|, |pattern|, step);
    && step >= 1 && |pattern| <= |target|
    && n * step + |pattern| > |target|
    && c <= n
    && i == c * step
    && (c < n ==> i + |pattern| <= |target|)
    && diff == PrefixMin(target, pattern, step, c)
    && (Truthy(threshold) ==> forall j :: 1 <= j <= c ==> !Hit(target, pattern, step, threshold.value, j))
  }

  /** A scan starts at offset 0 with an infinite minimum. */
  lemma ScanningStart(target: FeatureSeq, pattern: FeatureSeq, step: int, threshold: Option<real>)
    requires Comparable(target, pattern)
    requires step >= 1 && |pattern| <= |target|
    ensures Scanning(target, pattern, step, threshold, 0, 0, Inf)
  {
    OffsetPastRange(|target|, |pattern|, step);
  }

  /** A window that fits at offset `i` is the c-th enumerated one, and
      taking it into the minimum gives the running minimum after `c + 1`. */
  lemma ScanningWindow(target: FeatureSeq, pattern: FeatureSeq, step: int, threshold: Option<real>, c: nat, i: int, diff: Dist)
    requires Comparable(target, pattern)
    requires Scanning(target, pattern, step, threshold, c, i, diff)
    requires i <= |target| - |pattern|
    ensures c < NumOffsets(|target|, |pattern|, step)
    ensures Min(Fin(WindowDist(target, pattern, i)), diff) == PrefixMin(target, pattern, step, c + 1)
  {
    MulMonotone(NumOffsets(|target|, |pattern|, step), c, step);
  }

  /** A window that passes the threshold test ends the scan with the flag
      set. */
  lemma ScanningStop(target: FeatureSeq, pattern: FeatureSeq, step: int, threshold: Option<real>, c: nat, i: int, diff: Dist)
    requires Comparable(target, pattern)
    requires Scanning(target, pattern, step, threshold, c, i, diff)
    requires i <= |target| - |pattern|
    requires Truthy(threshold)
    requires Below(Norm(Min(Fin(WindowDist(target, pattern, i)), diff), |pattern|), threshold.value)
    ensures Match(target, pattern, step, threshold, false) ==
              MatchResult(Norm(Min(Fin(WindowDist(target, pattern, i)), diff), |pattern|), true)
  {
    ScanningWindow(target, pattern, step, threshold, c, i, diff);
    MatchStopsAt(target, pattern, step, threshold, c + 1);
  }

  /** A window that fails the threshold test moves the scan on by one step. */
  lemma ScanningNext(target: FeatureSeq, pattern: FeatureSeq, step: int, threshold: Option<real>, c: nat, i: int, diff: Dist)
    requires Comparable(target, pattern)
    requires Scanning(target, pattern, step, threshold, c, i, diff)
    requires i <= |target| - |pattern|
    requires !(Truthy(threshold) && Below(Norm(Min(Fin(WindowDist(target, pattern, i)), diff), |pattern|), threshold.value))
    ensures Scanning(target, pattern, step, threshold, c + 1, i + step, Min(Fin(WindowDist(target, pattern, i)), diff))
  {
    ScanningWindow(target, pattern, step, threshold, c, i, diff);
    NextOffset(|target|, |pattern|, step, c);
  }

  /** Past the last offset the scan has seen every window without
      stopping: the match is the full scan with the flag clear. */
  lemma ScanningEnd(target: FeatureSeq, pattern: FeatureSeq, step: int, threshold: Option<real>, c: nat, i: int, diff: Dist)
    requires Comparable(target, pattern)
    requires Scanning(target, pattern, step, threshold, c, i, diff)
    requires i > |target| - |pattern|
    ensures Match(target, pattern, step, threshold, false) == MatchResult(Norm(diff, |pattern|), false)
  {
    MatchRunsToEnd(target, pattern, step, threshold);
  }

  /** A target shorter than the pattern, or a negative step, gives an
      infinite distance and leaves the flag as it was. */
  lemma MatchShortTarget(target: FeatureSeq, pattern: FeatureSeq, step: int, threshold: Option<real>, stopFlag: bool)
    requires Comparable(target, pattern) && StepAccepted(target, pattern, step)
    requires |target| < |pattern| || step < 0
    ensures Match(target, pattern, step, threshold, stopFlag) == MatchResult(Inf, stopFlag)
  {
  }

  /** A flag already set by an earlier match makes this one infinite. */
  lemma MatchAfterStop(target: FeatureSeq, pattern: FeatureSeq, step: int, threshold: Option<real>)
    requires Comparable(target, pattern) && StepAccepted(target, pattern, step)
    ensures Match(target, pattern, step, threshold, true) == MatchResult(Inf, true)
  {
  }

  /** With the flag clear and a positive step, the result is infinite exactly
      when the target is shorter than the pattern. */
  lemma MatchInfiniteIff(target: FeatureSeq, pattern: FeatureSeq, step: int, threshold: Option<real>)
    requires Comparable(target, pattern) && step >= 1
    ensures Match(target, pattern, step, threshold, false).value.Inf? <==> |target| < |pattern|
  {
    var n := NumOffsets(|target|, |pattern|, step);
    SteppedAttained(target, pattern, step);
    if n > 0 && Truthy(threshold) {
      var h := FirstHit(target, pattern, step, threshold.value, 1);
      if h.Some? {
        PrefixMinIsLeast(target, pattern, step, h.value);
      }
    }
  }

  /** Without a truthy threshold the flag stays clear and the whole range is
      scanned. */
  lemma MatchWithoutThreshold(target: FeatureSeq, pattern: FeatureSeq, step: int, threshold: Option<real>)
    requires Comparable(target, pattern) && StepAccepted(target, pattern, step)
    requires !Truthy(threshold)
    ensures Match(target, pattern, step, threshold, false) == MatchResult(Stepped(target, pattern, step), false)
  {
    if NumOffsets(|target|, |pattern|, step) == 0 {
      assert PrefixMin(target, pattern, step, 0) == Inf;
    }
  }

  /** Threshold semantics. The match stops early and sets the flag exactly
      when the full scan would end below the threshold; the value it then
      reports is below the threshold but no better than the full scan's.
      Otherwise it reports the full scan. */
  lemma MatchWithThreshold(target: FeatureSeq, pattern: FeatureSeq, step: int, threshold: Option<real>)
    requires Comparable(target, pattern) && StepAccepted(target, pattern, step)
    requires Truthy(threshold)
    ensures var r := Match(target, pattern, step, threshold, false);
      && (r.stopFlag <==> Below(Stepped(target, pattern, step), threshold.value))
      && (r.stopFlag ==> Below(r.value, threshold.value) && Le(Stepped(target, pattern, step), r.value))
      && (!r.stopFlag ==> r.value == Stepped(target, pattern, step))
  {
    var n := NumOffsets(|target|, |pattern|, step);
    var t := threshold.value;
    if n == 0 {
      assert PrefixMin(target, pattern, step, 0) == Inf;
    } else {
      var h := FirstHit(target, pattern, step, t, 1);
      if h.Some? {
        PrefixMinAntitone(target, pattern, step, h.value, n);
        NormMonotone(PrefixMin(target, pattern, step, n), PrefixMin(target, pattern, step, h.value), |pattern|);
      } else {
        assert !Hit(target, pattern, step, t, n);
      }
    }
  }

  /** Every finite distance a match reports is non-negative. */
  lemma MatchNonNegative(target: FeatureSeq, pattern: FeatureSeq, step: int, threshold: Option<real>, stopFlag: bool)
    requires Comparable(target, pattern) && StepAccepted(target, pattern, step)
    ensures Match(target, pattern, step, threshold, stopFlag).value.Fin? ==>
              Match(target, pattern, step, threshold, stopFlag).value.v >= 0.0
  {
    var n := NumOffsets(|target|, |pattern|, step);
    if n > 0 && !stopFlag && Truthy(threshold) {
      var h := FirstHit(target, pattern, step, threshold.value, 1);
      if h.Some? {
        NormPrefixNonNegative(target, pattern, step, h.value);
      }
    }
    NormPrefixNonNegative(target, pattern, step, n);
  }

  /** The normalised running minimum is never negative. */
  lemma NormPrefixNonNegative(target: FeatureSeq, pattern: FeatureSeq, step: int, k: nat)
    requires Comparable(target, pattern)
    requires k <= NumOffsets(|target|, |pattern|, step)
    ensures Norm(PrefixMin(target, pattern, step, k), |pattern|).Fin? ==>
              Norm(PrefixMin(target, pattern, step, k), |pattern|).v >= 0.0
  {
    PrefixMinIsLeast(target, pattern, step, k);
    if k > 0 {
      var c :| 0 <= c < k && PrefixMin(target, pattern, step, k).v == OffsetDist(target, pattern, step, c);
      DivMonotone(0.0, PrefixMin(target, pattern, step, k).v, |pattern| as real);
    }
  }

  /** The exhaustive distance of each pattern of a library, in dict order. */
  function ExhaustiveValues(target: FeatureSeq, lib: Library): (vs: seq<Dist>)
    requires Scannable(target, lib)
    ensures |vs| == |lib|
    ensures forall j :: 0 <= j < |lib| ==> vs[j] == Exhaustive(target, lib[j].pattern)
  {
    seq(|lib|, j requires 0 <= j < |lib| => Exhaustive(target, lib[j].pattern))
  }

  /** The distance each pattern of a library gets from a scan with the
      given step and threshold and a clear stop flag, in dict order. */
  function IndependentValues(target: FeatureSeq, lib: Library, step: int, threshold: Option<real>): (vs: seq<Dist>)
    requires Scannable(target, lib) && StepsAccepted(target, lib, step)
    ensures |vs| == |lib|
    ensures forall j :: 0 <= j < |lib| ==> vs[j] == Match(target, lib[j].pattern, step, threshold, false).value
  {
    seq(|lib|, j requires 0 <= j < |lib| => Match(target, lib[j].pattern, step, threshold, false).value)
  }
}

=== FILE: scanners.dfy ===
/** The two scan loops of the revisions that have no stop flag: the
    exhaustive loop of `cmp_mfcc.py` (also the sequential branch of
    `patterns_cmp.py` and the worker of `cmp_mfcc_multicore.py`), and the
    loop with a threshold break of `patterns_cmp.cmp_proc` and of the older
    `televid.py`. Each is proved to compute the value of `Scan`. */
module Scanners {
  import opened Optional
  import opened ExtReal
  import opened Features
  import opened Scan

  /** The exhaustive loop: every start offset from 0 to `T - W` in turn,
      keeping the least window distance seen, then dividing by the window
      length. */
  method ScanAll(target: FeatureSeq, pattern: FeatureSeq) returns (d: Dist)
    requires Comparable(target, pattern)
    ensures d == Exhaustive(target, pattern)
  {
    var window := |pattern|;
    var diff := Inf;
    if |target| >= window {
      var idx := 0;
      while idx < |target| - window + 1
        invariant 0 <= idx <= |target| - window + 1 == NumOffsets(|target|, window, 1)
        invariant diff == PrefixMin(target, pattern, 1, idx)
      {
        assert OffsetDist(target, pattern, 1, idx) == WindowDist(target, pattern, idx);
        diff := Min(Fin(WindowDist(target, pattern, idx)), diff);
        idx := idx + 1;
      }
    }
    d := Norm(diff, window);
  }

  /** The same loop advancing the offset by `step`, which leaves early once
      a truthy threshold is set and the normalised running minimum is below
      it. No flag is shared, so each pattern is scanned as if the flag were
      clear. */
  method ScanWithThreshold(target: FeatureSeq, pattern: FeatureSeq, step: int, threshold: Option<real>)
    returns (d: Dist)
    requires Comparable(target, pattern)
    requires StepAccepted(target, pattern, step)
    ensures d == Match(target, pattern, step, threshold, false).value
  {
    var window := |pattern|;
    var diff := Inf;
    // A negative step makes `range` empty.
    if |target| >= window && step > 0 {
      ghost var c: nat := 0;
      ScanningStart(target, pattern, step, threshold);
      var i := 0;
      while i <= |target| - window
        invariant Scanning(target, pattern, step, threshold, c, i, diff)
        decreases |target| - i
      {
        ghost var prev := diff;
        diff := Min(Fin(WindowDist(target, pattern, i)), diff);
        if Truthy(threshold) && Below(Norm(diff, window), threshold.value) {
          ScanningStop(target, pattern, step, threshold, c, i, prev);
          return Norm(diff, window);
        }
        ScanningNext(target, pattern, step, threshold, c, i, prev);
        c := c + 1;
        i := i + step;
      }
      ScanningEnd(target, pattern, step, threshold, c, i, diff);
    } else {
      MatchShortTarget(target, pattern, step, threshold, false);
    }
    d := Norm(diff, window);
  }
}

=== FILE: televid.dfy ===
/** The current matcher (`televid/televid.py`): `Televid.cmp_proc` scans
    one pattern with a step, a threshold and a stop flag shared by every
    pattern of one `identify` call; the sequential `identify` runs it on
    each pattern of the library in dict order and records every result in
    the persistent `diffs` dict. */
module Televid {
  import opened Optional
  import opened ExtReal
  import opened Features
  import opened Scan
  import opened DistanceMaps

  /** `cmp_proc(name, golden_pattern, stop_flag)`: the stop flag is read
      before every window, and a truthy threshold that the running minimum
      drops below sets it and ends the scan. */
  method CmpProc(target: FeatureSeq, pattern: FeatureSeq, step: int, threshold: Option<real>, stopFlag: bool)
    returns (value: Dist, flag: bool)
    requires Comparable(target, pattern)
    requires StepAccepted(target, pattern, step)
    ensures MatchResult(value, flag) == Match(target, pattern, step, threshold, stopFlag)
  {
    var window := |pattern|;
    var diff := Inf;
    flag := stopFlag;
    // A negative step makes `range` empty.
    if |target| >= window && step > 0 {
      ghost var c: nat := 0;
      ScanningStart(target, pattern, step, threshold);
      var i := 0;
      while i <= |target| - window
        invariant Scanning(target, pattern, step, threshold, c, i, diff)
        invariant flag == stopFlag && (stopFlag ==> c == 0)
        decreases |target| - i
      {
        if flag {
          MatchAfterStop(target, pattern, step, threshold);
          diff := Inf;
          break;
        }
        ghost var prev := diff;
        diff := Min(Fin(WindowDist(target, pattern, i)), diff);
        if Truthy(threshold) && Below(Norm(diff, window), threshold.value) {
          ScanningStop(target, pattern, step, threshold, c, i, prev);
          flag := true;
          break;
        }
        ScanningNext(target, pattern, step, threshold, c, i, prev);
        c := c + 1;
        i := i + step;
      }
      if !flag {
        ScanningEnd(target, pattern, step, threshold, c, i, diff);
      }
    } else {
      MatchShortTarget(target, pattern, step, threshold, stopFlag);
    }
    value := Norm(diff, window);
  }

  /** The results of the sequential loop of `identify`, in dict order: each
      pattern is matched with the stop flag the previous match left, and a
      fresh flag starts clear. */
  function Sweep(target: FeatureSeq, lib: Library, step: int, threshold: Option<real>): (r: seq<MatchResult>)
    requires Scannable(target, lib) && StepsAccepted(target, lib, step)
    ensures |r| == |lib|
    decreases |lib|
  {
    if |lib| == 0 then []
    else
      var prev := Sweep(target, lib[..|lib| - 1], step, threshold);
      prev + [Match(target, lib[|lib| - 1].pattern, step, threshold, FlagAfter(prev))]
  }

  /** The stop flag after a run of matches: clear before the first. */
  function FlagAfter(results: seq<MatchResult>): bool {
    |results| > 0 && results[|results| - 1].stopFlag
  }

  /** Sweeping one more pattern appends its match, started with the flag
      the shorter sweep left. */
  lemma SweepSnoc(target: FeatureSeq, lib: Library, step: int, threshold: Option<real>, k: nat)
    requires Scannable(target, lib) && StepsAccepted(target, lib, step)
    requires k < |lib|
    ensures var prev := Sweep(target, lib[..k], step, threshold);
      Sweep(target, lib[..k + 1], step, threshold) ==
        prev + [Match(target, lib[k].pattern, step, threshold, FlagAfter(prev))]
  {
    assert lib[..k + 1][..k] == lib[..k];
  }

  /** The sweep of a prefix of the library is the prefix of the sweep. */
  lemma {:induction false} SweepPrefix(target: FeatureSeq, lib: Library, step: int, threshold: Option<real>, k: nat)
    requires Scannable(target, lib) && StepsAccepted(target, lib, step)
    requires k <= |lib|
    ensures Sweep(target, lib[..k], step, threshold) == Sweep(target, lib, step, threshold)[..k]
    decreases |lib|
  {
    if k < |lib| {
      assert lib[..|lib| - 1][..k] == lib[..k];
      SweepPrefix(target, lib[..|lib| - 1], step, threshold, k);
    } else {
      assert lib[..k] == lib;
    }
  }

  /** Each pattern's result is one match started with the flag that the
      patterns before it left. */
  lemma SweepStep(target: FeatureSeq, lib: Library, step: int, threshold: Option<real>, j: nat)
    requires Scannable(target, lib) && StepsAccepted(target, lib, step)
    requires j < |lib|
    ensures var r := Sweep(target, lib, step, threshold);
      r[j] == Match(target, lib[j].pattern, step, threshold, FlagAfter(r[..j]))
  {
    SweepPrefix(target, lib, step, threshold, j + 1);
    SweepPrefix(target, lib, step, threshold, j);
    var r := Sweep(target, lib, step, threshold);
    assert lib[..j + 1][..j] == lib[..j];
    assert r[..j + 1][..j] == r[..j];
  }

  /** Once a match sets the flag it stays set for the rest of the sweep. */
  lemma {:induction false} FlagStaysSet(target: FeatureSeq, lib: Library, step: int, threshold: Option<real>, i: nat, j: nat)
    requires Scannable(target, lib) && StepsAccepted(target, lib, step)
    requires i <= j < |lib|
    requires Sweep(target, lib, step, threshold)[i].stopFlag
    ensures Sweep(target, lib, step, threshold)[j].stopFlag
    decreases j - i
  {
    if i < j {
      FlagStaysSet(target, lib, step, threshold, i, j - 1);
      SweepStep(target, lib, step, threshold, j);
    }
  }

  /** A result below the threshold is always one that set the flag. */
  lemma BelowSetsFlag(target: FeatureSeq, lib: Library, step: int, threshold: Option<real>, i: nat)
    requires Scannable(target, lib) && StepsAccepted(target, lib, step)
    requires Truthy(threshold) && i < |lib|
    ensures Below(Sweep(target, lib, step, threshold)[i].value, threshold.value) ==> Sweep(target, lib, step, threshold)[i].stopFlag
  {
    SweepStep(target, lib, step, threshold, i);
    MatchAfterStop(target, lib[i].pattern, step, threshold);
    MatchWithThreshold(target, lib[i].pattern, step, threshold);
  }

  /** After the first pattern whose distance falls below the threshold,
      every later pattern of the sweep is reported as infinite. */
  lemma LaterPatternsInfinite(target: FeatureSeq, lib: Library, step: int, threshold: Option<real>, i: nat, j: nat)
    requires Scannable(target, lib) && StepsAccepted(target, lib, step)
    requires Truthy(threshold)
    requires i < j < |lib|
    requires Below(Sweep(target, lib, step, threshold)[i].value, threshold.value)
    ensures Sweep(target, lib, step, threshold)[j] == MatchResult(Inf, true)
  {
    BelowSetsFlag(target, lib, step, threshold, i);
    FlagStaysSet(target, lib, step, threshold, i, j - 1);
    SweepStep(target, lib, step, threshold, j);
    MatchAfterStop(target, lib[j].pattern, step, threshold);
  }

  /** With a truthy threshold the flag is set after pattern `j` exactly when
      some pattern up to `j` was reported below the threshold. */
  lemma {:induction false} FlagSetIff(target: FeatureSeq, lib: Library, step: int, threshold: Option<real>, j: nat)
    requires Scannable(target, lib) && StepsAccepted(target, lib, step)
    requires Truthy(threshold) && j < |lib|
    ensures var r := Sweep(target, lib, step, threshold);
      r[j].stopFlag <==> exists i :: 0 <= i <= j && Below(r[i].value, threshold.value)
    decreases j
  {
    var r := Sweep(target, lib, step, threshold);
    SweepStep(target, lib, step, threshold, j);
    if j > 0 {
      FlagSetIff(target, lib, step, threshold, j - 1);
    }
    if r[j].stopFlag && !FlagAfter(r[..j]) {
      assert Below(r[j].value, threshold.value);
    }
    if exists i :: 0 <= i <= j && Below(r[i].value, threshold.value) {
      var i :| 0 <= i <= j && Below(r[i].value, threshold.value);
      BelowSetsFlag(target, lib, step, threshold, i);
      FlagStaysSet(target, lib, step, threshold, i, j);
    }
  }

  /** Without a truthy threshold the flag is never set and every pattern is
      scanned over its whole range. */
  lemma SweepWithoutThreshold(target: FeatureSeq, lib: Library, step: int, threshold: Option<real>, j: nat)
    requires Scannable(target, lib) && StepsAccepted(target, lib, step)
    requires !Truthy(threshold)
    requires j < |lib|
    ensures Sweep(target, lib, step, threshold)[j] == MatchResult(Stepped(target, lib[j].pattern, step), false)
    decreases j
  {
    var r := Sweep(target, lib, step, threshold);
    SweepStep(target, lib, step, threshold, j);
    if j > 0 {
      SweepWithoutThreshold(target, lib, step, threshold, j - 1);
    }
    MatchWithoutThreshold(target, lib[j].pattern, step, threshold);
  }

  /** The state of the sequential loop after `k` patterns: the results so
      far are the sweep of those patterns, the flag is the one they left, and
      the dict records their distances. */
  ghost predicate IdentifyState(diffs: DistanceMap, target: FeatureSeq, lib: Library, step: int, threshold: Option<real>,
                                k: nat, results: seq<MatchResult>, stopFlag: bool, r: DistanceMap)
    requires Scannable(target, lib) && StepsAccepted(target, lib, step)
  {
    && k <= |lib| && |results| == k
    && results == Sweep(target, lib[..k], step, threshold)
    && stopFlag == FlagAfter(results)
    && r == RecordAll(diffs, NamesOf(lib)[..k], ValuesOf(results))
  }

  /** One more `diffs.update(cmp_proc(...))` keeps the loop state. */
  lemma IdentifyStep(diffs: DistanceMap, target: FeatureSeq, lib: Library, step: int, threshold: Option<real>,
                     k: nat, results: seq<MatchResult>, stopFlag: bool, r: DistanceMap, next: MatchResult)
    requires Scannable(target, lib) && UniqueNames(lib) && StepsAccepted(target, lib, step)
    requires IdentifyState(diffs, target, lib, step, threshold, k, results, stopFlag, r) && k < |lib|
    requires next == Match(target, lib[k].pattern, step, threshold, stopFlag)
    ensures IdentifyState(diffs, target, lib, step, threshold, k + 1, results + [next], next.stopFlag,
                          Update(r, lib[k].name, next.value))
  {
    SweepSnoc(target, lib, step, threshold, k);
    var names := NamesOf(lib)[..k + 1];
    var values := ValuesOf(results + [next]);
    assert names[..k] == NamesOf(lib)[..k] && values[..k] == ValuesOf(results);
    RecordAllSnoc(diffs, names, values, k);
    assert names[..k + 1] == names && values[..k + 1] == values;
  }

  /** After the last pattern the dict is the merge of the whole sweep. */
  lemma IdentifyFinal(diffs: DistanceMap, target: FeatureSeq, lib: Library, step: int, threshold: Option<real>,
                      results: seq<MatchResult>, stopFlag: bool, r: DistanceMap)
    requires Scannable(target, lib) && StepsAccepted(target, lib, step)
    requires IdentifyState(diffs, target, lib, step, threshold, |lib|, results, stopFlag, r)
    ensures r == RecordAll(diffs, NamesOf(lib), ValuesOf(Sweep(target, lib, step, threshold)))
  {
    assert lib[..|lib|] == lib && NamesOf(lib)[..|lib|] == NamesOf(lib);
  }

  /** The merge of the whole sweep gives the contract of `Identify`. */
  lemma IdentifyDone(diffs: DistanceMap, target: FeatureSeq, lib: Library, step: int, threshold: Option<real>, r: DistanceMap)
    requires Scannable(target, lib) && UniqueNames(lib) && StepsAccepted(target, lib, step)
    requires r == RecordAll(diffs, NamesOf(lib), ValuesOf(Sweep(target, lib, step, threshold)))
    ensures forall j :: 0 <= j < |lib| ==> Get(r, lib[j].name) == Some(Sweep(target, lib, step, threshold)[j].value)
    ensures forall nm :: nm !in NamesOf(lib) ==> Get(r, nm) == Get(diffs, nm)
    ensures diffs == [] ==> Names(r) == NamesOf(lib)
    ensures UniqueKeys(diffs) ==> UniqueKeys(r)
  {
    var names := NamesOf(lib);
    assert DistinctNames(names);
    RecordAllSpec(diffs, names, ValuesOf(Sweep(target, lib, step, threshold)));
  }

  /** The sequential branch of `identify(threshold, scan_step)`: a fresh
      clear stop flag, then `diffs.update(cmp_proc(...))` for each pattern.
      Every library name ends up holding its pattern's result, every other
      key of the persistent dict keeps its value, and on a fresh dict the
      keys are the library's names in dict order. */
  method Identify(diffs: DistanceMap, target: FeatureSeq, lib: Library, step: int, threshold: Option<real>)
    returns (r: DistanceMap)
    requires Scannable(target, lib) && UniqueNames(lib)
    requires StepsAccepted(target, lib, step)
    ensures forall j :: 0 <= j < |lib| ==> Get(r, lib[j].name) == Some(Sweep(target, lib, step, threshold)[j].value)
    ensures forall nm :: nm !in NamesOf(lib) ==> Get(r, nm) == Get(diffs, nm)
    ensures diffs == [] ==> Names(r) == NamesOf(lib)
    ensures UniqueKeys(diffs) ==> UniqueKeys(r)
  {
    var stopFlag := false;
    ghost var results: seq<MatchResult> := [];
    r := diffs;
    var k := 0;
    while k < |lib|
      invariant IdentifyState(diffs, target, lib, step, threshold, k, results, stopFlag, r)
    {
      var value, flag := CmpProc(target, lib[k].pattern, step, threshold, stopFlag);
      IdentifyStep(diffs, target, lib, step, threshold, k, results, stopFlag, r, MatchResult(value, flag));
      r := Update(r, lib[k].name, value);
      results := results + [MatchResult(value, flag)];
      stopFlag := flag;
      k := k + 1;
    }
    IdentifyFinal(diffs, target, lib, step, threshold, results, stopFlag, r);
    IdentifyDone(diffs, target, lib, step, threshold, r);
  }
}

=== FILE: televid_legacy.dfy ===
/** The older single-file revision (`televid.py`): `identify` defines a
    local `cmp_proc` with a step and a threshold break but no stop flag,
    and its sequential branch prints each pattern's result instead of
    storing it. */
module TelevidLegacy {
  import opened Optional
  import opened ExtReal
  import opened Features
  import opened Scan
  import opened DistanceMaps
  import opened Scanners
  import opened QueueMerge
  import Televid

  /** `cmp_proc(name, golden_pattern)`: the one-item dict `{name: diff / window}`. */
  method CmpProc(name: string, goldenPattern: FeatureSeq, target: FeatureSeq, step: int, threshold: Option<real>)
    returns (res: Entry)
    requires Comparable(target, goldenPattern)
    requires StepAccepted(target, goldenPattern, step)
    ensures res.name == name
    ensures res.value == Match(target, goldenPattern, step, threshold, false).value
  {
    var d := ScanWithThreshold(target, goldenPattern, step, threshold);
    res := Entry(name, d);
  }

  /** The sequential branch of `identify(threshold, scan_step)`: the
      results it prints, one per pattern in dict order; nothing is kept. */
  method IdentifyPrinted(target: FeatureSeq, lib: Library, step: int, threshold: Option<real>)
    returns (printed: seq<Entry>)
    requires Scannable(target, lib)
    requires StepsAccepted(target, lib, step)
    ensures |printed| == |lib|
    ensures forall j :: 0 <= j < |lib| ==>
              printed[j] == Entry(lib[j].name, Match(target, lib[j].pattern, step, threshold, false).value)
  {
    printed := [];
    var k := 0;
    while k < |lib|
      invariant 0 <= k <= |lib| && |printed| == k
      invariant forall j :: 0 <= j < k ==>
                  printed[j] == Entry(lib[j].name, Match(target, lib[j].pattern, step, threshold, false).value)
    {
      var res := CmpProc(lib[k].name, lib[k].pattern, target, step, threshold);
      printed := printed + [res];
      k := k + 1;
    }
  }

  /** The parallel branch: one process per pattern, the parent printing one
      queued result per process in arrival order. The stop flag handed to
      each process is never read, so every process scans undisturbed and
      the lines printed are those of the sequential branch, rearranged. */
  method IdentifyPrintedParallel(target: FeatureSeq, lib: Library, step: int, threshold: Option<real>, order: seq<nat>)
    returns (printed: seq<Entry>)
    requires Scannable(target, lib)
    requires StepsAccepted(target, lib, step)
    requires IsCompletionOrder(order, |lib|)
    ensures |printed| == |lib|
    ensures forall i :: 0 <= i < |order| ==>
              printed[i] == Entry(lib[order[i]].name, Match(target, lib[order[i]].pattern, step, threshold, false).value)
    ensures forall j :: 0 <= j < |lib| ==>
              Entry(lib[j].name, Match(target, lib[j].pattern, step, threshold, false).value) in printed
  {
    printed := [];
    var k := 0;
    while k < |order|
      invariant 0 <= k <= |order| && |printed| == k
      invariant forall i :: 0 <= i < k ==>
                  printed[i] == Entry(lib[order[i]].name, Match(target, lib[order[i]].pattern, step, threshold, false).value)
    {
      var res := CmpProc(lib[order[k]].name, lib[order[k]].pattern, target, step, threshold);
      printed := printed + [res];
      k := k + 1;
    }
    forall j | 0 <= j < |lib|
      ensures Entry(lib[j].name, Match(target, lib[j].pattern, step, threshold, false).value) in printed
    {
      var i := PositionOf(order, |lib|, j);
      assert printed[i] == Entry(lib[j].name, Match(target, lib[j].pattern, step, threshold, false).value);
    }
  }

  /** What the shared stop flag of the current revision changes: a pattern
      gets the distance this revision prints for it, unless an earlier
      pattern already stopped the sweep, in which case it is infinite. */
  lemma SweepVersusIndependent(target: FeatureSeq, lib: Library, step: int, threshold: Option<real>, j: nat)
    requires Scannable(target, lib) && StepsAccepted(target, lib, step)
    requires j < |lib|
    ensures var r := Televid.Sweep(target, lib, step, threshold);
      r[j].value == if Televid.FlagAfter(r[..j]) then Inf else Match(target, lib[j].pattern, step, threshold, false).value
  {
    Televid.SweepStep(target, lib, step, threshold, j);
    MatchAfterStop(target, lib[j].pattern, step, threshold);
  }
}

=== FILE: televid_parallel.dfy ===
/** The multi-process branch of `identify` in `televid/televid.py`: one
    `cmp_proc` process per pattern, all sharing one stop flag and one
    queue, and the parent merging exactly one queued result per process
    into `diffs` (in the order they arrive).

    The flag is shared memory, so what a process reports depends on the
    schedule, not only on its pattern. What it can report is fixed by its
    loop, though: it either finishes its own scan undisturbed (and
    reports the same as a match with a clear flag), or it finds the flag
    set at the top of an iteration and reports `inf`, which is exactly what
    a match started with the flag set reports. A process can only find the
    flag set if some other process, itself undisturbed, set it. The
    schedule is therefore given by two parameters: the arrival order on the
    queue and which processes were stopped by the flag. */
module TelevidParallel {
  import opened Optional
  import opened ExtReal
  import opened Features
  import opened Scan
  import opened DistanceMaps
  import opened QueueMerge
  import Televid

  /** A possible choice of stopped processes: each stopped one was stopped
      by the flag some undisturbed process set after its own threshold
      test succeeded. */
  predicate StoppedByFlag(target: FeatureSeq, lib: Library, step: int, threshold: Option<real>, stopped: seq<bool>)
    requires Scannable(target, lib) && StepsAccepted(target, lib, step) && |stopped| == |lib|
  {
    forall j :: 0 <= j < |lib| && stopped[j] ==>
      exists k :: 0 <= k < |lib| && !stopped[k] && Match(target, lib[k].pattern, step, threshold, false).stopFlag
  }

  /** What each process reports, in dict order. */
  function WorkerValues(target: FeatureSeq, lib: Library, step: int, threshold: Option<real>, stopped: seq<bool>): (vs: seq<Dist>)
    requires Scannable(target, lib) && StepsAccepted(target, lib, step) && |stopped| == |lib|
    ensures |vs| == |lib|
  {
    seq(|lib|, j requires 0 <= j < |lib| => Match(target, lib[j].pattern, step, threshold, stopped[j]).value)
  }

  /** A process reports its undisturbed match, or `inf` when stopped. */
  lemma WorkerValue(target: FeatureSeq, lib: Library, step: int, threshold: Option<real>, stopped: seq<bool>, j: nat)
    requires Scannable(target, lib) && StepsAccepted(target, lib, step) && |stopped| == |lib| && j < |lib|
    ensures WorkerValues(target, lib, step, threshold, stopped)[j] ==
              if stopped[j] then Inf else Match(target, lib[j].pattern, step, threshold, false).value
  {
    MatchAfterStop(target, lib[j].pattern, step, threshold);
  }

  /** The parallel branch of `identify`: every library name ends up
      holding what its process reported (its undisturbed match, or `inf` if
      the flag stopped it), and every other key keeps its value. */
  method IdentifyParallel(diffs: DistanceMap, target: FeatureSeq, lib: Library, step: int, threshold: Option<real>,
                          order: seq<nat>, stopped: seq<bool>)
    returns (r: DistanceMap)
    requires Scannable(target, lib) && UniqueNames(lib) && StepsAccepted(target, lib, step)
    requires IsCompletionOrder(order, |lib|)
    requires |stopped| == |lib| && StoppedByFlag(target, lib, step, threshold, stopped)
    ensures forall j :: 0 <= j < |lib| ==>
              Get(r, lib[j].name) == Some(if stopped[j] then Inf else Match(target, lib[j].pattern, step, threshold, false).value)
    ensures forall nm :: nm !in NamesOf(lib) ==> Get(r, nm) == Get(diffs, nm)
  {
    ghost var vals := WorkerValues(target, lib, step, threshold, stopped);
    ghost var names := OrderedNames(lib, order);
    ghost var values := Permute(vals, order);
    r := diffs;
    var k := 0;
    while k < |order|
      invariant 0 <= k <= |order|
      invariant r == RecordAll(diffs, names[..k], values[..k])
    {
      var j := order[k];
      var value, flag := Televid.CmpProc(target, lib[j].pattern, step, threshold, stopped[j]);
      RecordAllSnoc(diffs, names, values, k);
      r := Update(r, lib[j].name, value);
      k := k + 1;
    }
    assert names[..k] == names && values[..k] == values;
    ParallelDone(diffs, target, lib, step, threshold, order, stopped, r);
  }

  /** The merge of every reported value gives the contract of
      `IdentifyParallel`. */
  lemma ParallelDone(diffs: DistanceMap, target: FeatureSeq, lib: Library, step: int, threshold: Option<real>,
                     order: seq<nat>, stopped: seq<bool>, r: DistanceMap)
    requires Scannable(target, lib) && UniqueNames(lib) && StepsAccepted(target, lib, step)
    requires IsCompletionOrder(order, |lib|) && |stopped| == |lib|
    requires r == RecordAll(diffs, OrderedNames(lib, order), Permute(WorkerValues(target, lib, step, threshold, stopped), order))
    ensures forall j :: 0 <= j < |lib| ==>
              Get(r, lib[j].name) == Some(if stopped[j] then Inf else Match(target, lib[j].pattern, step, threshold, false).value)
    ensures forall nm :: nm !in NamesOf(lib) ==> Get(r, nm) == Get(diffs, nm)
  {
    var vals := WorkerValues(target, lib, step, threshold, stopped);
    MergeIntoValues(diffs, lib, vals, order);
    MergeIntoOthers(diffs, lib, vals, order);
    forall j | 0 <= j < |lib|
      ensures Get(r, lib[j].name) == Some(if stopped[j] then Inf else Match(target, lib[j].pattern, step, threshold, false).value)
    {
      WorkerValue(target, lib, step, threshold, stopped, j);
    }
  }

  /** Without a truthy threshold no process sets the flag, so none is
      stopped and every schedule gives the sequential results. */
  lemma ParallelWithoutThreshold(target: FeatureSeq, lib: Library, step: int, threshold: Option<real>, stopped: seq<bool>, j: nat)
    requires Scannable(target, lib) && StepsAccepted(target, lib, step) && |stopped| == |lib|
    requires StoppedByFlag(target, lib, step, threshold, stopped)
    requires !Truthy(threshold) && j < |lib|
    ensures !stopped[j]
    ensures WorkerValues(target, lib, step, threshold, stopped)[j] == Televid.Sweep(target, lib, step, threshold)[j].value
  {
    forall k | 0 <= k < |lib|
      ensures !Match(target, lib[k].pattern, step, threshold, false).stopFlag
    {
      MatchWithoutThreshold(target, lib[k].pattern, step, threshold);
    }
    WorkerValue(target, lib, step, threshold, stopped, j);
    MatchWithoutThreshold(target, lib[j].pattern, step, threshold);
    Televid.SweepWithoutThreshold(target, lib, step, threshold, j);
  }

  /** The first pattern of the sweep that left the flag set: it started
      with the flag clear. */
  lemma {:induction false} FirstSetter(target: FeatureSeq, lib: Library, step: int, threshold: Option<real>, j: nat) returns (k: nat)
    requires Scannable(target, lib) && StepsAccepted(target, lib, step) && j < |lib|
    requires Televid.Sweep(target, lib, step, threshold)[j].stopFlag
    ensures k <= j && Televid.Sweep(target, lib, step, threshold)[k].stopFlag
    ensures !Televid.FlagAfter(Televid.Sweep(target, lib, step, threshold)[..k])
    decreases j
  {
    var r := Televid.Sweep(target, lib, step, threshold);
    if j > 0 && r[j - 1].stopFlag {
      k := FirstSetter(target, lib, step, threshold, j - 1);
    } else {
      k := j;
    }
  }

  /** The sequential loop is one of the schedules of the parallel branch:
      the processes it runs with the flag already set are the stopped ones,
      that choice is possible, and it reports the same values. */
  lemma SequentialIsOneSchedule(target: FeatureSeq, lib: Library, step: int, threshold: Option<real>, stopped: seq<bool>)
    requires Scannable(target, lib) && StepsAccepted(target, lib, step)
    requires |stopped| == |lib|
    requires forall j :: 0 <= j < |lib| ==> stopped[j] == Televid.FlagAfter(Televid.Sweep(target, lib, step, threshold)[..j])
    ensures StoppedByFlag(target, lib, step, threshold, stopped)
    ensures forall j :: 0 <= j < |lib| ==>
              WorkerValues(target, lib, step, threshold, stopped)[j] == Televid.Sweep(target, lib, step, threshold)[j].value
  {
    var r := Televid.Sweep(target, lib, step, threshold);
    forall j | 0 <= j < |lib| && stopped[j]
      ensures exists k :: 0 <= k < |lib| && !stopped[k] && Match(target, lib[k].pattern, step, threshold, false).stopFlag
    {
      var k := FirstSetter(target, lib, step, threshold, j - 1);
      Televid.SweepStep(target, lib, step, threshold, k);
    }
    forall j | 0 <= j < |lib|
      ensures WorkerValues(target, lib, step, threshold, stopped)[j] == r[j].value
    {
      Televid.SweepStep(target, lib, step, threshold, j);
    }
  }
}
